=== FILE: README.md ===
# Blob back-fill fix-up, modelled in Dafny

This project models the repair script of the history service's blob back-fill,
`back_fill_file_hash_fix_up.mjs`. The script reads the log of an earlier
back-fill run. It picks out the lines reporting `"failed to process file"` and
dispatches each one on its error signature to one of three repairs:

- **not found**: the file tree references a file whose legacy filestore object
  is gone. The reference is `$pull`ed from its parent folder's `fileRefs`.
- **hash mismatch**: the tree's recorded hash disagrees with the hash computed
  from the filestore bytes. When no blob exists under the computed hash, the
  file is imported again from the filestore and the tree hash is set to the
  hash of the bytes read now, which equals the line's computed hash only if
  those bytes have not changed since. Otherwise the blob under the computed
  hash is checked and backed up, and the tree hash is set to the computed one.
- **delete permission**: the blob is checked, registered, backed up and its
  hash set in the tree. The hash is computed from the filestore when the line
  has none.

The script counts every outcome in `STATS` and derives its exit status from
those counters.

The model is functional:

- The state the script reads or changes is a value, `ProjectStore.World`:
  - the per-run project cache;
  - the blob index and the stored blob bytes, per history id;
  - the backup registry;
  - the list of database writes issued.
- What it only reads is `ProjectStore.Env`:
  - the configured bucket;
  - the global blobs;
  - the project documents;
  - the legacy filestore objects;
  - the blob-hash function;
  - the `matchedCount` the database answers to each write.
- Every operation returns the new state together with its result or its
  error. A thrown error therefore never undoes the effects that came before it.

Modules:

| module | file | what it covers |
|---|---|---|
| `Common` | common.dfy | `Option` and `Result` |
| `Text` | text.dfy | `includes`, `lastIndexOf`, `slice(0, end)`, decimal rendering of indices |
| `FileTree` | file_tree.dfy | folders, file references, positions and their dotted field paths |
| `TreeSearch` | tree_search.dfy | `getFileTreePath` and the depth-first order it follows |
| `TreeEdit` | tree_edit.dfy | the two cache edits: filtering out a reference, overwriting a hash |
| `ProjectStore` | project_store.dfy | environment, state, `getProject`, `findFile`, write shapes |
| `Reconciler` | reconciler.dfy | `setHashInMongo`, the three fix actions and the blob/backup helpers |
| `LogProcessor` | log_processor.dfy | `CASES`, `STATS`, `processLog`, the exit code of `main` |
| `RunOptions` | run_options.dfy | `boolVal`, `parseArgs`, the start-up checks |

The script assigns its switches crosswise (lines 74 and 76 of the script). The
value given for `--fixNotFound` becomes `FIX_HASH_MISMATCH`, and the value
given for `--fixHashMismatch` becomes `FIX_NOT_FOUND`. The model keeps this
wiring as written (`RunOptions.ParseArgs`) and shows its effect on a concrete
command line (`RunOptions.CrossedSwitches`). It is not "corrected", because
the intended meaning is an open product question.

## Model

| member | source | states |
|---|---|---|
| Text.IncludesIffOccurs | services/history-v1/storage/scripts/back_fill_file_hash_fix_up.mjs:516-519 | the `includes` test used on log lines holds exactly when the substring occurs at some position |
| Text.LastIndexOf | services/history-v1/storage/scripts/back_fill_file_hash_fix_up.mjs:237 | `lastIndexOf` yields -1 or a position holding the character, with none of that character after it |
| Text.DropLastSegment | services/history-v1/storage/scripts/back_fill_file_hash_fix_up.mjs:237 | slicing a string up to its last separator removes exactly the final segment when that segment has no separator |
| Text.NatToStringRoundTrip | services/history-v1/storage/scripts/back_fill_file_hash_fix_up.mjs:161-176 | the index rendered into a field path reads back as the same number, so paths name real positions |
| FileTree.HasIdIffPath | services/history-v1/storage/scripts/back_fill_file_hash_fix_up.mjs:153-183 | an id occurs in the tree exactly when some valid position holds a reference with that id |
| FileTree.ArrayFieldOfPath | services/history-v1/storage/scripts/back_fill_file_hash_fix_up.mjs:237 | cutting the full path of a reference at its last dot leaves the field path of the parent folder's `fileRefs` array |
| TreeSearch.GetFileTreePath | services/history-v1/storage/scripts/back_fill_file_hash_fix_up.mjs:153-183 | the search finds something exactly when the id is in the tree; the hit is the first match in depth-first order; the returned reference and folder are the ones the returned path leads to |
| TreeSearch.SearchFolders | services/history-v1/storage/scripts/back_fill_file_hash_fix_up.mjs:168-181 | the loop over sub-folders finds the id exactly when a sub-folder from the current index on holds it, and picks the first such sub-folder |
| TreeSearch.IndexOfRef | services/history-v1/storage/scripts/back_fill_file_hash_fix_up.mjs:155-167 | the loop over a folder's own references returns the first index with the id, or none when no index has it |
| TreeSearch.FirstMatchUnique | services/history-v1/storage/scripts/back_fill_file_hash_fix_up.mjs:153-183 | at most one position satisfies the depth-first first-match order, so the answer is determined |
| TreeSearch.SearchFindsExactlyFirstMatch | services/history-v1/storage/scripts/back_fill_file_hash_fix_up.mjs:153-183 | the search returns a position if and only if that position is the first match |
| TreeSearch.SameIdsSamePath | services/history-v1/storage/scripts/back_fill_file_hash_fix_up.mjs:153-183 | trees with the same ids at the same positions give the same search answer, whatever their hashes |
| TreeEdit.RemoveRefs | services/history-v1/storage/scripts/back_fill_file_hash_fix_up.mjs:254 | the filter keeps exactly the references whose id differs, and never adds any |
| TreeEdit.RemoveRefsAppend | services/history-v1/storage/scripts/back_fill_file_hash_fix_up.mjs:254 | filtering works piecewise over a concatenation, so survivors keep their order |
| TreeEdit.RemoveRefsAbsent | services/history-v1/storage/scripts/back_fill_file_hash_fix_up.mjs:254 | filtering a list that lacks the id leaves it unchanged |
| TreeEdit.SetFileRefsFrame | services/history-v1/storage/scripts/back_fill_file_hash_fix_up.mjs:253-254 | replacing one folder's references keeps the folder skeleton and every other folder's references |
| TreeEdit.SetRefHashEffect | services/history-v1/storage/scripts/back_fill_file_hash_fix_up.mjs:286 | overwriting the cached hash changes that reference's hash only, keeping its id and all other references |
| TreeEdit.SetRefHashKeepsSearch | services/history-v1/storage/scripts/back_fill_file_hash_fix_up.mjs:286 | after a hash is overwritten in the cache, every id is found at the same position as before |
| TreeEdit.RemoveRefAtClearsId | services/history-v1/storage/scripts/back_fill_file_hash_fix_up.mjs:253-254 | with unique ids, filtering the id out of its parent folder leaves no reference with that id anywhere |
| ProjectStore.GetProject | services/history-v1/storage/scripts/back_fill_file_hash_fix_up.mjs:123-146 | answers from the cache when possible; otherwise loads the live document first, then the soft-deleted one, and caches it; with neither it fails as hard-deleted without changing state; only the cache changes, only by gaining the id |
| ProjectStore.GetProjectMemoises | services/history-v1/storage/scripts/back_fill_file_hash_fix_up.mjs:124-125 | asking again for a loaded project returns the same answer and changes nothing |
| ProjectStore.FindFile | services/history-v1/storage/scripts/back_fill_file_hash_fix_up.mjs:190-221 | changes only the project cache; a located file is the search result in the cached root, with the document kind of the cache entry |
| ProjectStore.FindFileOutcome | services/history-v1/storage/scripts/back_fill_file_hash_fix_up.mjs:190-221 | hard-deleted projects fail with that error; a file absent from the tree fails with `FileDeleted` carrying the document kind, and only then; otherwise it gives the first match, the full path under `rootFolder.0` or `project.rootFolder.0`, and a filter on `_id` or `deleterData.deletedProjectId` plus the element's `_id` |
| Reconciler.SetHashInMongo | services/history-v1/storage/scripts/back_fill_file_hash_fix_up.mjs:264-287 | never touches the blob store, the blob bytes or the backup registry; keeps every cached project's history id and kind, and every other cached project entirely; issues at most one write, after the earlier ones |
| Reconciler.SetHashInMongoEffect | services/history-v1/storage/scripts/back_fill_file_hash_fix_up.mjs:264-287 | after success the tree holds the hash at the located reference; positions, the id and every other reference and cached project are unchanged |
| Reconciler.SetHashInMongoNoWrite | services/history-v1/storage/scripts/back_fill_file_hash_fix_up.mjs:269 | a reference that already has the hash gets no write |
| Reconciler.SetHashInMongoIdempotent | services/history-v1/storage/scripts/back_fill_file_hash_fix_up.mjs:264-287 | repeating a successful call does nothing |
| Reconciler.SetHashInMongoWrite | services/history-v1/storage/scripts/back_fill_file_hash_fix_up.mjs:271-285 | exactly one `$set` on `<fullPath>.hash` goes to the right collection with the right version field and filter; it fails exactly when the write did not match one document, leaving the cache alone |
| Reconciler.FixNotFound | services/history-v1/storage/scripts/back_fill_file_hash_fix_up.mjs:227-256 | returns `true` whenever it returns; never touches the blob store, the blob bytes or the backup registry; keeps every cached project's history id and kind, and every other cached project entirely |
| Reconciler.FixNotFoundBucketGuard | services/history-v1/storage/scripts/back_fill_file_hash_fix_up.mjs:228-231 | a line about another bucket fails before anything is read or written |
| Reconciler.FixNotFoundEffect | services/history-v1/storage/scripts/back_fill_file_hash_fix_up.mjs:233-255 | a missing file passes `findFile`'s error through; otherwise exactly one `$pull` of the file id from the parent's `fileRefs` array, sent to the deleted-projects collection for a soft-deleted project and to the projects collection otherwise, with the located filter and version field; failure exactly when it did not match one document; on success only the parent folder's cached references change, losing that id |
| Reconciler.FixNotFoundReplay | services/history-v1/storage/scripts/back_fill_file_hash_fix_up.mjs:253-254 | with unique ids, replaying a repaired line reports the benign file-deleted error, because the cache no longer has the reference |
| Reconciler.ImportRestoredFile | services/history-v1/storage/scripts/back_fill_file_hash_fix_up.mjs:317-320 | stores, registers and backs up exactly the legacy bytes' blob and nothing else; keeps every other cached project and issues at most one write |
| Reconciler.ImportRestoredFileEffect | services/history-v1/storage/scripts/back_fill_file_hash_fix_up.mjs:295-324 | a missing legacy object fails with the needs-restore error and changes nothing; otherwise the blob index, the stored bytes and the backup registry gain exactly the legacy bytes' blob under the given history and the project, and nothing else; other cached projects are unchanged and at most one write is issued; success also leaves that hash in the tree |
| Reconciler.ComputeFilestoreFileHash | services/history-v1/storage/scripts/back_fill_file_hash_fix_up.mjs:331-358 | succeeds exactly when the legacy object exists, returning the hash of its bytes, and otherwise fails with the needs-restore error |
| Reconciler.NeedsBackingUp | services/history-v1/storage/scripts/back_fill_file_hash_fix_up.mjs:405-408 | a global blob never needs a backup; any other blob needs one exactly when it is not yet backed up for the project |
| Reconciler.BackupSettlesNeed | services/history-v1/storage/scripts/back_fill_file_hash_fix_up.mjs:405-408 | recording a backup of a blob for a project removes the need to back it up, and leaves the need of every other project and blob unchanged |
| Reconciler.EnsureBlobExists | services/history-v1/storage/scripts/back_fill_file_hash_fix_up.mjs:416-459 | a hard-deleted project changes nothing; an "already processed" answer leaves blob store and backup registry untouched; in every case the stored blob bytes and every other cached project are unchanged, each cached project keeps its history id and kind, at most one write is added after the earlier ones, and the blob index and backup registry gain at most this hash under the project's history and the project |
| Reconciler.EnsureBlobShortCircuit | services/history-v1/storage/scripts/back_fill_file_hash_fix_up.mjs:420-426 | it answers `false` exactly when the tree has the hash, the history has the blob and no backup is needed, and then only loads the project |
| Reconciler.EnsureBlobRejectsCorruption | services/history-v1/storage/scripts/back_fill_file_hash_fix_up.mjs:438-445 | a `true` answer implies the stored bytes hash to the hash; bytes that do not, when work is needed, fail as corrupted with nothing registered, backed up or written |
| Reconciler.EnsureBlobEffect | services/history-v1/storage/scripts/back_fill_file_hash_fix_up.mjs:447-458 | every success leaves the state reconciled; a `true` answer means the blob is registered and backed up for the project |
| Reconciler.ReconciledShortCircuits | services/history-v1/storage/scripts/back_fill_file_hash_fix_up.mjs:420-426 | a reconciled state answers `false` and changes nothing |
| Reconciler.EnsureBlobIdempotent | services/history-v1/storage/scripts/back_fill_file_hash_fix_up.mjs:416-459 | after any success, the same call answers "already processed" and changes nothing |
| Reconciler.FixHashMismatchBranches | services/history-v1/storage/scripts/back_fill_file_hash_fix_up.mjs:364-387 | a blob under the recorded hash fails at once; no blob under the computed hash means an import answering `true` on success and leaving the legacy bytes' hash in the tree; otherwise the answer is the ensure-and-backup step for the computed hash |
| Reconciler.FixHashMismatchReplay | services/history-v1/storage/scripts/back_fill_file_hash_fix_up.mjs:364-387 | replaying a hash-mismatch line repaired by an import answers "already processed" and changes nothing, provided the legacy bytes hash to the line's computed hash, the line's history id is the project's, and the recorded hash differs from the computed one (otherwise a replay imports again or looks in another history) |
| Reconciler.FixDeletePermissionRoundTrip | services/history-v1/storage/scripts/back_fill_file_hash_fix_up.mjs:465-469 | success leaves the state reconciled for the line's hash, or for the legacy bytes' hash when the line has none; a line without a hash and without a legacy object fails with the needs-restore error and changes nothing |
| LogProcessor.FirstCase | services/history-v1/storage/scripts/back_fill_file_hash_fix_up.mjs:518-519 | the case chosen is the first in table order whose signature the line contains; none is chosen only when no signature occurs |
| LogProcessor.Record | services/history-v1/storage/scripts/back_fill_file_hash_fix_up.mjs:489-497 | one outcome counter goes up by one and no other counter moves |
| LogProcessor.Classify | services/history-v1/storage/scripts/back_fill_file_hash_fix_up.mjs:521-535 | `true` is a success, `false` already processed, the file-deleted error its own outcome, and every other error a failure (each an if-and-only-if) |
| LogProcessor.ProcessLineCounts | services/history-v1/storage/scripts/back_fill_file_hash_fix_up.mjs:515-516 | every line read is counted; a line without the marker changes nothing else; a marker line moves exactly one outcome counter up by one |
| LogProcessor.FirstMatchingCaseDecides | services/history-v1/storage/scripts/back_fill_file_hash_fix_up.mjs:518-542 | an unmatched marker line counts as unmatched; the first matching case decides; a disabled case counts as skipped and runs nothing; an enabled case runs only its action, whose result is classified |
| LogProcessor.AbsentFileCountsAsDeleted | services/history-v1/storage/scripts/back_fill_file_hash_fix_up.mjs:190-197 | an enabled not-found line for the right bucket whose file is absent from its project's tree counts as file-deleted, never as failed |
| LogProcessor.LinesBeforeShutdown | services/history-v1/storage/scripts/back_fill_file_hash_fix_up.mjs:513-514 | the number of lines read is the index of the first line seen after shutdown was requested |
| LogProcessor.ProcessLogTotals | services/history-v1/storage/scripts/back_fill_file_hash_fix_up.mjs:509-544 | a run counts as processed exactly the lines read before shutdown, adds one outcome per marker line among them, and ignores every line from the shutdown on |
| LogProcessor.ProcessLogMonotone | services/history-v1/storage/scripts/back_fill_file_hash_fix_up.mjs:509-544 | no outcome counter ever decreases during a run (the growth of `processedLines` is given exactly by `LogProcessor.ProcessLogTotals`) |
| LogProcessor.ExitCode | services/history-v1/storage/scripts/back_fill_file_hash_fix_up.mjs:557-566 | failures give the failure count capped at 99; otherwise 100 for unmatched lines; otherwise 101 for skipped lines; otherwise 0 (each an if-and-only-if) |
| LogProcessor.QuietLogExitsClean | services/history-v1/storage/scripts/back_fill_file_hash_fix_up.mjs:509-566 | a log with no marker line before shutdown exits with 0 |
| RunOptions.BoolVal | services/history-v1/storage/scripts/back_fill_file_hash_fix_up.mjs:68-72 | a refusal names the option it was given |
| RunOptions.BoolValInverse | services/history-v1/storage/scripts/back_fill_file_hash_fix_up.mjs:68-72 | only "true" and "false" are accepted, and parsing is the exact inverse of rendering a boolean |
| RunOptions.ParseArgsWiring | services/history-v1/storage/scripts/back_fill_file_hash_fix_up.mjs:56-79 | parsing succeeds exactly when all three switches are boolean literals; the not-found case takes the `fixHashMismatch` value and the hash-mismatch case the `fixNotFound` value; the first bad switch in reading order is reported |
| RunOptions.CrossedSwitches | services/history-v1/storage/scripts/back_fill_file_hash_fix_up.mjs:74-76 | `--fixNotFound=false` leaves the not-found case enabled and disables the hash-mismatch case |
| RunOptions.Startup | services/history-v1/storage/scripts/back_fill_file_hash_fix_up.mjs:81-92 | start-up succeeds exactly when the switches parse, a log path is given and the bucket variable is set; parse errors come first, then the missing log path |

## Left out

- Real I/O is not modelled. This covers temporary files and streams, `readline`, the signal handlers, the `setInterval` stats logger, the console and `logger` output, and removal of the buffer directory. Each log line is given as text plus the fields it decodes to, and a line that is not JSON decodes to nothing. The shutdown flag is an input that comes with each line.
- Hashing is not computed. The blob hash of a byte string is an uninterpreted function of the environment. `makeBlobForFile`, `putFile` and `getStringLengthOfFile` reduce to that hash, and string lengths are not modelled.
- The database is not modelled as a store. Documents are a snapshot read once per project, which is what the script sees, since it caches every project it loads. Each write is recorded in a log, and its `matchedCount` comes from an oracle in the environment. The effect of a write on the stored document is not modelled. The oracle is a function of the write, so it gives the same answer to two identical writes. The real database may answer differently when the same write is issued again, for example on a later line about the same file after a transient mismatch. No proved property depends on a repeated write.
- `backupBlob` is keyed by history id and `_blobIsBackedUp` by project id. The mapping between the two lives in a library that is not part of this model. A backup is therefore recorded against the project being repaired.
- The `insertBlob` hack in `ensureBlobExistsForFileAndUploadToAWS` is modelled only as registering the blob under its history. Blob metadata beyond the hash is left out.
- `ObjectId` construction, its validation and its equality are left out. Ids are opaque strings compared with `==`, and the `toString()` of a history id is the id itself.
- Null entries inside `fileRefs` arrays (the `?.` on line 158) are left out. Missing `folders` or `fileRefs` arrays are modelled as empty, which is how the search treats them.
- `Reconciler.FixHashMismatch`: a line without a computed hash or without an `entry` fails as malformed. The script would throw a `TypeError` for a missing `entry`, which is counted the same way. It would go on with an undefined hash if only the hash were missing.
- Errors thrown by collaborators themselves are not modelled: database errors, storage errors other than not-found, and stream errors. Only the error paths the script creates or distinguishes are.
- `hashAlreadyUpdatedInFileTree` has no member of its own. `Reconciler.EnsureBlobExists` compares the located reference's hash inline. `Reconciler.TreeHashIs` states the same test on the cached tree, and `Reconciler.EnsureBlobShortCircuit` connects the two.
- `STREAM_HIGH_WATER_MARK`, `BUFFER_DIR` and the environment variables other than the bucket name only affect I/O, so they are left out.

=== FILE: common.dfy ===
/** Optional values and results shared by every module of the model. */
module Common {

  /** A value that may be absent (a JavaScript `null`/`undefined`). */
  datatype Option<+T> = None | Some(value: T)

  /** The outcome of an operation that may throw: `Ok` carries the returned
      value, `Err` the thrown error. */
  datatype Result<+T, +E> = Ok(value: T) | Err(error: E)
}

=== FILE: file_tree.dfy ===
/** The project file tree: a root folder holding ordered sub-folders and ordered
    file references, the positions of file references inside it, and the
    database field paths those positions are written as. */
module FileTree {
  import Text

  /** A file id (the hex string of an ObjectId), compared as an opaque value. */
  type Id = string

  /** A content hash of a blob. */
  type Hash = string

  /** A leaf of the tree: `{ _id, hash }`. */
  datatype FileRef = FileRef(id: Id, hash: Hash)

  /** `{ folders, fileRefs }`; a missing array is the same as an empty one. */
  datatype Folder = Folder(folders: seq<Folder>, fileRefs: seq<FileRef>)

  /** The position of a file reference: the sub-folder index taken at each level,
      then the index in the reached folder's `fileRefs`. */
  datatype TreePath = TreePath(folders: seq<nat>, fileIdx: nat)

  /** The same position seen from one level further up, through sub-folder `i`. */
  function Descend(i: nat, p: TreePath): TreePath
  {
    TreePath([i] + p.folders, p.fileIdx)
  }

  /** The position seen from inside the first sub-folder on the path. */
  function Tail(p: TreePath): TreePath
    requires |p.folders| > 0
  {
    TreePath(p.folders[1..], p.fileIdx)
  }

  lemma TailOfDescend(i: nat, p: TreePath)
    ensures Tail(Descend(i, p)) == p
  {
    assert ([i] + p.folders)[1..] == p.folders;
  }

  /** Every sub-folder index on `fp` exists at its level. */
  predicate ValidFolderPath(f: Folder, fp: seq<nat>)
    decreases |fp|
  {
    |fp| == 0 || (fp[0] < |f.folders| && ValidFolderPath(f.folders[fp[0]], fp[1..]))
  }

  /** The folder reached by following `fp` from `f`. */
  function FolderAt(f: Folder, fp: seq<nat>): Folder
    requires ValidFolderPath(f, fp)
    decreases |fp|
  {
    if |fp| == 0 then f else FolderAt(f.folders[fp[0]], fp[1..])
  }

  /** `p` names an existing file reference of `f`. */
  predicate ValidPath(f: Folder, p: TreePath)
  {
    ValidFolderPath(f, p.folders) && p.fileIdx < |FolderAt(f, p.folders).fileRefs|
  }

  /** The file reference at position `p`. */
  function RefAt(f: Folder, p: TreePath): FileRef
    requires ValidPath(f, p)
  {
    FolderAt(f, p.folders).fileRefs[p.fileIdx]
  }

  /** Some file reference anywhere in the tree carries `id`. */
  predicate HasId(f: Folder, id: Id)
    decreases f
  {
    || (exists k :: 0 <= k < |f.fileRefs| && f.fileRefs[k].id == id)
    || (exists j :: 0 <= j < |f.folders| && HasId(f.folders[j], id))
  }

  /** Going down one sub-folder keeps a position valid and reaches the same reference. */
  lemma DescendValid(f: Folder, i: nat, p: TreePath)
    requires i < |f.folders| && ValidPath(f.folders[i], p)
    ensures ValidPath(f, Descend(i, p))
    ensures RefAt(f, Descend(i, p)) == RefAt(f.folders[i], p)
    ensures FolderAt(f, Descend(i, p).folders) == FolderAt(f.folders[i], p.folders)
  {
    TailOfDescend(i, p);
  }

  /** The recursive `HasId` agrees with "some valid position holds a reference with that id". */
  lemma {:induction false} HasIdIffPath(f: Folder, id: Id)
    ensures HasId(f, id) <==> exists p :: ValidPath(f, p) && RefAt(f, p).id == id
    decreases f
  {
    if HasId(f, id) {
      if k :| 0 <= k < |f.fileRefs| && f.fileRefs[k].id == id {
        var p := TreePath([], k);
        assert ValidPath(f, p) && RefAt(f, p).id == id;
      } else {
        var j :| 0 <= j < |f.folders| && HasId(f.folders[j], id);
        HasIdIffPath(f.folders[j], id);
        var q :| ValidPath(f.folders[j], q) && RefAt(f.folders[j], q).id == id;
        DescendValid(f, j, q);
      }
    }
    if p :| ValidPath(f, p) && RefAt(f, p).id == id {
      if |p.folders| == 0 {
        assert f.fileRefs[p.fileIdx].id == id;
      } else {
        var j := p.folders[0];
        HasIdIffPath(f.folders[j], id);
        assert ValidPath(f.folders[j], Tail(p)) && RefAt(f.folders[j], Tail(p)).id == id;
      }
    }
  }

  /** A tree in which no id occurs at two positions (the document invariant the
      search relies on when it stops at the first hit). */
  ghost predicate UniqueIds(f: Folder)
  {
    forall p, q :: ValidPath(f, p) && ValidPath(f, q) && RefAt(f, p).id == RefAt(f, q).id ==> p == q
  }

  /** `.folders.<i>` for every sub-folder step of a path. */
  function FolderSegments(fp: seq<nat>): string
    decreases |fp|
  {
    if |fp| == 0 then "" else ".folders." + Text.NatToString(fp[0]) + FolderSegments(fp[1..])
  }

  /** The dotted field path of a position relative to its root folder, as
      `getFileTreePath` spells it: `.folders.2.fileRefs.0`. */
  function PathString(p: TreePath): string
  {
    FolderSegments(p.folders) + ".fileRefs." + Text.NatToString(p.fileIdx)
  }

  /** Dropping the last dotted segment of `prefix + PathString(p)` leaves the field
      path of the `fileRefs` array that holds the position: the target of `$pull`. */
  lemma ArrayFieldOfPath(prefix: string, p: TreePath)
    ensures var full := prefix + PathString(p);
            Text.SliceTo(full, Text.LastIndexOf(full, '.'))
            == prefix + FolderSegments(p.folders) + ".fileRefs"
  {
    var a := prefix + FolderSegments(p.folders) + ".fileRefs";
    var digits := Text.NatToString(p.fileIdx);
    assert prefix + PathString(p) == a + ['.'] + digits;
    Text.DropLastSegment(a, '.', digits);
  }
}

=== FILE: log_processor.dfy ===
/** `processLog` and the end of `main`: each log line is counted, lines without
    the failure marker are passed over, marker lines go to the first case of
    the `CASES` table whose signature they contain, a disabled case counts as
    skipped, an enabled one runs its action and its result is classified into
    the `STATS` counters; the exit code is derived from those counters. */
module LogProcessor {
  import opened Common
  import opened Text
  import opened FileTree
  import opened ProjectStore
  import opened Reconciler
  import opened RunOptions

  /** The quoted log message every relevant line carries. */
  const Marker: string := "\"failed to process file\""

  /** The repair action a case runs. */
  datatype Action = FixNotFoundAction | FixHashMismatchAction | FixDeletePermissionAction

  /** One entry of `CASES`: a name, the substring that selects it, its switch and its action. */
  datatype Case = Case(name: string, signature: string, enabled: bool, action: Action)

  /** `CASES`, in the order the script iterates over them. */
  function Cases(cfg: Config): seq<Case>
  {
    [ Case("not found", "NotFoundError", cfg.fixNotFound, FixNotFoundAction),
      Case("hash mismatch", "OError: hash mismatch", cfg.fixHashMismatch, FixHashMismatchAction),
      Case("delete permission", "storage.objects.delete", cfg.fixDeletePermission, FixDeletePermissionAction) ]
  }

  /** The first case from index `from` on whose signature the line contains. */
  function FirstCase(cases: seq<Case>, text: string, from: nat): (r: Option<nat>)
    requires from <= |cases|
    decreases |cases| - from
    ensures r.Some? ==> from <= r.value < |cases| && Includes(text, cases[r.value].signature)
    ensures r.Some? ==> forall k :: from <= k < r.value ==> !Includes(text, cases[k].signature)
    ensures r.None? ==> forall k :: from <= k < |cases| ==> !Includes(text, cases[k].signature)
  {
    if from == |cases| then None
    else if Includes(text, cases[from].signature) then Some(from)
    else FirstCase(cases, text, from + 1)
  }

  /** A log line: its raw text, and its decoded fields (`None` when it is not
      valid JSON). */
  datatype LogLine = LogLine(text: string, fields: Option<Fields>)

  /** The shutdown flag as the loop sees it just before a line, and that line. */
  datatype Tick = Tick(shutdownRequested: bool, line: LogLine)

  /** Where a marker line ends up. */
  datatype Outcome = Success | AlreadyProcessed | FileDeletedOutcome | Skipped | Failed | Unmatched

  /** `STATS`. */
  datatype Stats = Stats(
    processedLines: nat,
    success: nat,
    alreadyProcessed: nat,
    fileDeleted: nat,
    skipped: nat,
    failed: nat,
    unmatched: nat)

  const NoStats := Stats(0, 0, 0, 0, 0, 0, 0)

  /** The counter an outcome advances. */
  function Count(s: Stats, o: Outcome): nat
  {
    match o
    case Success => s.success
    case AlreadyProcessed => s.alreadyProcessed
    case FileDeletedOutcome => s.fileDeleted
    case Skipped => s.skipped
    case Failed => s.failed
    case Unmatched => s.unmatched
  }

  /** All outcome counters together. */
  function OutcomeTotal(s: Stats): nat
  {
    s.success + s.alreadyProcessed + s.fileDeleted + s.skipped + s.failed + s.unmatched
  }

  /** Advances the counter of one outcome: that counter goes up by one and no
      other counter moves. */
  function Record(s: Stats, o: Outcome): (r: Stats)
    ensures r.processedLines == s.processedLines
    ensures Count(r, o) == Count(s, o) + 1
    ensures forall o' :: o' != o ==> Count(r, o') == Count(s, o')
    ensures OutcomeTotal(r) == OutcomeTotal(s) + 1
  {
    match o
    case Success => s.(success := s.success + 1)
    case AlreadyProcessed => s.(alreadyProcessed := s.alreadyProcessed + 1)
    case FileDeletedOutcome => s.(fileDeleted := s.fileDeleted + 1)
    case Skipped => s.(skipped := s.skipped + 1)
    case Failed => s.(failed := s.failed + 1)
    case Unmatched => s.(unmatched := s.unmatched + 1)
  }

  /** How the result of an enabled action is counted: `true` is a success,
      `false` means already processed, `FileDeletedError` is the benign
      file-deleted outcome, and every other error is a failure. */
  function Classify(r: Result<bool, Error>): (o: Outcome)
    ensures o == Success <==> r == Ok(true)
    ensures o == AlreadyProcessed <==> r == Ok(false)
    ensures o == FileDeletedOutcome <==> r.Err? && r.error.FileDeleted?
    ensures o == Failed <==> r.Err? && !r.error.FileDeleted?
  {
    match r
    case Ok(b) => if b then Success else AlreadyProcessed
    case Err(e) => if e.FileDeleted? then FileDeletedOutcome else Failed
  }

  /** Runs an action on a line; a line that is not JSON makes it throw. */
  function RunAction(env: Env, w: World, a: Action, fields: Option<Fields>): Step<bool>
  {
    match fields
    case None => Step(w, Err(MalformedLine))
    case Some(f) =>
      match a
      case FixNotFoundAction => FixNotFound(env, w, f)
      case FixHashMismatchAction => FixHashMismatch(env, w, f)
      case FixDeletePermissionAction => FixDeletePermission(env, w, f)
  }

  /** The state the loop carries from line to line. */
  datatype Progress = Progress(world: World, stats: Stats)

  /** One iteration of the loop body, after the shutdown check. */
  function ProcessLine(env: Env, cfg: Config, p: Progress, line: LogLine): (r: Progress)
  {
    var s := p.stats.(processedLines := p.stats.processedLines + 1);
    if !Includes(line.text, Marker) then Progress(p.world, s)
    else
      var cases := Cases(cfg);
      match FirstCase(cases, line.text, 0)
      case None => Progress(p.world, Record(s, Unmatched))
      case Some(k) =>
        if !cases[k].enabled then Progress(p.world, Record(s, Skipped))
        else
          var step := RunAction(env, p.world, cases[k].action, line.fields);
          Progress(step.world, Record(s, Classify(step.result)))
  }

  /** Every line read is counted once. A line without the marker moves no other
      counter and touches no state. A marker line moves exactly one outcome
      counter by one (the outcome total grows by one and no counter falls). */
  lemma ProcessLineCounts(env: Env, cfg: Config, p: Progress, line: LogLine)
    ensures var r := ProcessLine(env, cfg, p, line);
            && r.stats.processedLines == p.stats.processedLines + 1
            && (!Includes(line.text, Marker) ==>
                  r == Progress(p.world, p.stats.(processedLines := p.stats.processedLines + 1)))
            && (Includes(line.text, Marker) ==>
                  && OutcomeTotal(r.stats) == OutcomeTotal(p.stats) + 1
                  && forall o :: Count(r.stats, o) >= Count(p.stats, o))
  {
  }

  /** The first case in table order whose signature the line contains decides
      it: a line with the marker and no signature is unmatched; a disabled case
      is skipped without running anything; an enabled case runs its action and
      no other, and its result decides the counter. */
  lemma FirstMatchingCaseDecides(env: Env, cfg: Config, p: Progress, line: LogLine)
    requires Includes(line.text, Marker)
    ensures var r := ProcessLine(env, cfg, p, line);
            var cases := Cases(cfg);
            var s := p.stats.(processedLines := p.stats.processedLines + 1);
            && ((forall k :: 0 <= k < |cases| ==> !Includes(line.text, cases[k].signature)) ==>
                  r == Progress(p.world, Record(s, Unmatched)))
            && (forall k :: (0 <= k < |cases| && Includes(line.text, cases[k].signature)
                             && (forall j :: 0 <= j < k ==> !Includes(line.text, cases[j].signature))) ==>
                  if cases[k].enabled then
                    var step := RunAction(env, p.world, cases[k].action, line.fields);
                    r == Progress(step.world, Record(s, Classify(step.result)))
                  else r == Progress(p.world, Record(s, Skipped)))
  {
    var cases := Cases(cfg);
    var first := FirstCase(cases, line.text, 0);
    forall k | 0 <= k < |cases| && Includes(line.text, cases[k].signature)
                && (forall j :: 0 <= j < k ==> !Includes(line.text, cases[j].signature))
      ensures first == Some(k)
    {
    }
  }

  /** A not-found line for the configured bucket, whose case is enabled and
      selected, about a file absent from its (existing) project's tree, counts
      as file-deleted and never as failed. */
  lemma AbsentFileCountsAsDeleted(env: Env, cfg: Config, p: Progress, line: LogLine)
    requires Includes(line.text, Marker) && Includes(line.text, "NotFoundError")
    requires cfg.fixNotFound
    requires line.fields.Some? && line.fields.value.bucketName == Some(env.bucket)
    requires var pid := line.fields.value.projectId;
             var g := GetProject(env, p.world, pid);
             g.result.Ok? && (Root(g.result.value).None? || !HasId(Root(g.result.value).value, line.fields.value.fileId))
    ensures var r := ProcessLine(env, cfg, p, line);
            && r.stats.fileDeleted == p.stats.fileDeleted + 1
            && r.stats.failed == p.stats.failed
  {
    var f := line.fields.value;
    assert FirstCase(Cases(cfg), line.text, 0) == Some(0);
    FindFileOutcome(env, p.world, f.projectId, f.fileId);
  }

  /** The number of lines the loop reads before it sees the shutdown flag: the
      index of the first tick with the flag set, or all of them. */
  function LinesBeforeShutdown(ticks: seq<Tick>): (n: nat)
    ensures n <= |ticks|
    ensures forall i :: 0 <= i < n ==> !ticks[i].shutdownRequested
    ensures n < |ticks| ==> ticks[n].shutdownRequested
  {
    if |ticks| == 0 || ticks[0].shutdownRequested then 0
    else 1 + LinesBeforeShutdown(ticks[1..])
  }

  /** How many of the given ticks carry a marker line. */
  function MarkerLines(ticks: seq<Tick>): nat
  {
    if |ticks| == 0 then 0
    else (if Includes(ticks[0].line.text, Marker) then 1 else 0) + MarkerLines(ticks[1..])
  }

  /** The `for await` loop: stop as soon as the shutdown flag is seen,
      otherwise process the line and go on. */
  function ProcessLog(env: Env, cfg: Config, p: Progress, ticks: seq<Tick>): Progress
    decreases |ticks|
  {
    if |ticks| == 0 || ticks[0].shutdownRequested then p
    else ProcessLog(env, cfg, ProcessLine(env, cfg, p, ticks[0].line), ticks[1..])
  }

  /** Over a whole run, `processedLines` grows by the number of lines before
      shutdown, and the outcome counters together by the number of marker lines
      among them; lines from the shutdown on are never looked at. */
  lemma {:induction false} ProcessLogTotals(env: Env, cfg: Config, p: Progress, ticks: seq<Tick>)
    ensures var n := LinesBeforeShutdown(ticks);
            var r := ProcessLog(env, cfg, p, ticks);
            && r.stats.processedLines == p.stats.processedLines + n
            && OutcomeTotal(r.stats) == OutcomeTotal(p.stats) + MarkerLines(ticks[..n])
            && r == ProcessLog(env, cfg, p, ticks[..n])
    decreases |ticks|
  {
    var n := LinesBeforeShutdown(ticks);
    if |ticks| > 0 && !ticks[0].shutdownRequested {
      var p' := ProcessLine(env, cfg, p, ticks[0].line);
      ProcessLineCounts(env, cfg, p, ticks[0].line);
      ProcessLogTotals(env, cfg, p', ticks[1..]);
      assert ticks[1..][..n - 1] == ticks[..n][1..];
      assert ticks[..n][0] == ticks[0];
    } else {
      assert ticks[..n] == [];
    }
  }

  /** Counters never go down while the log is processed. */
  lemma {:induction false} ProcessLogMonotone(env: Env, cfg: Config, p: Progress, ticks: seq<Tick>)
    ensures forall o :: Count(ProcessLog(env, cfg, p, ticks).stats, o) >= Count(p.stats, o)
    decreases |ticks|
  {
    if |ticks| > 0 && !ticks[0].shutdownRequested {
      ProcessLineCounts(env, cfg, p, ticks[0].line);
      ProcessLogMonotone(env, cfg, ProcessLine(env, cfg, p, ticks[0].line), ticks[1..]);
    }
  }

  /** The exit status of `main`: any failure gives the failure count capped at
      99; else any unmatched line gives 100; else any skipped line gives 101;
      else 0. */
  function ExitCode(s: Stats): (code: nat)
    ensures s.failed > 0 <==> 1 <= code <= 99
    ensures s.failed > 0 && s.failed <= 99 ==> code == s.failed
    ensures s.failed > 99 ==> code == 99
    ensures code == 100 <==> s.failed == 0 && s.unmatched > 0
    ensures code == 101 <==> s.failed == 0 && s.unmatched == 0 && s.skipped > 0
    ensures code == 0 <==> s.failed == 0 && s.unmatched == 0 && s.skipped == 0
  {
    if s.failed > 0 then (if s.failed < 99 then s.failed else 99)
    else if s.unmatched > 0 then 100
    else if s.skipped > 0 then 101
    else 0
  }

  /** The whole of `main` after start-up: process the log from empty counters
      and derive the exit code. */
  function RunExitCode(env: Env, cfg: Config, w: World, ticks: seq<Tick>): nat
  {
    ExitCode(ProcessLog(env, cfg, Progress(w, NoStats), ticks).stats)
  }

  /** A log with no marker line before shutdown exits cleanly. */
  lemma {:induction false} QuietLogExitsClean(env: Env, cfg: Config, w: World, ticks: seq<Tick>)
    requires forall i :: 0 <= i < LinesBeforeShutdown(ticks) ==> !Includes(ticks[i].line.text, Marker)
    ensures RunExitCode(env, cfg, w, ticks) == 0
  {
    var n := LinesBeforeShutdown(ticks);
    ProcessLogTotals(env, cfg, Progress(w, NoStats), ticks);
    NoMarkers(ticks[..n]);
  }

  lemma {:induction false} NoMarkers(ticks: seq<Tick>)
    requires forall i :: 0 <= i < |ticks| ==> !Includes(ticks[i].line.text, Marker)
    ensures MarkerLines(ticks) == 0
  {
    if |ticks| > 0 {
      NoMarkers(ticks[1..]);
    }
  }
}

=== FILE: project_store.dfy ===
/** The external collaborators of the repair script and its per-run project
    cache: project documents, the content-addressable blob store, the legacy
    filestore, the backup registry and the document-database writes. Each is
    reduced to the state the decision logic reads or changes. */
module ProjectStore {
  import opened Common
  import opened FileTree
  import opened TreeSearch

  type ProjectId = string
  type HistoryId = string
  type Bytes = seq<bv8>

  /** A project document: `rootFolder` (an array whose first element is the
      root) and `overleaf.history.id`. */
  datatype Project = Project(rootFolder: seq<Folder>, historyId: HistoryId)

  /** A `PROJECT_CACHE` entry. */
  datatype CachedProject = CachedProject(project: Project, softDeleted: bool)

  /** The root folder `project.rootFolder[0]`, when the array has one. */
  function Root(c: CachedProject): Option<Folder>
  {
    if |c.project.rootFolder| > 0 then Some(c.project.rootFolder[0]) else None
  }

  /** Everything a repair action can throw. Only `FileDeleted` is benign. */
  datatype Error =
    | FileDeleted(softDeleted: bool)  // `FileDeletedError`: the id is not in the file tree
    | ProjectHardDeleted              // neither a live nor a soft-deleted document exists
    | OtherBucket                     // a not-found line for a bucket other than the user-files bucket
    | WriteNotMatched                 // `updateOne` matched a number of documents other than 1
    | MissingFilestoreFile            // the legacy filestore object is gone and must be restored by hand
    | BlobFoundUnderTreeHash          // a blob exists under the recorded tree hash: unexplained mismatch
    | BlobObjectMissing               // `getStream` found no stored bytes for the hash
    | BlobCorrupted                   // the downloaded bytes do not hash to the expected hash
    | MalformedLine                   // the line is not JSON or lacks a field the action destructures

  /** The two collections a document can live in. */
  datatype Collection = Projects | DeletedProjects

  /** The `updateOne` filter: the project key and the id expected at the element. */
  datatype Query = Query(projectKey: string, projectId: ProjectId, elementIdField: string, fileId: Id)

  /** The array or field operation of a write (`$pull` or `$set`). */
  datatype Mutation = Pull(arrayField: string, fileId: Id) | SetHash(field: string, hash: Hash)

  /** One `updateOne` call; every write also increments `versionField` by one. */
  datatype Write = Write(collection: Collection, query: Query, mutation: Mutation, versionField: string)

  /** The read-only side of the environment.
      - `bucket`: `USER_FILES_BUCKET_NAME`.
      - `globalBlobs`: the hashes of `GLOBAL_BLOBS`.
      - `hashOf`: the blob hash computed from a file's bytes (left uninterpreted).
      - `matchedCount`: what the database answers to a write.
      - `liveProjects`, `softDeletedProjects`: project documents as first read, by project id
        (a soft-deleted one is found by `deleterData.deletedProjectId`).
      - `filestore`: legacy objects of the user-files bucket, keyed by project and file id. */
  datatype Env = Env(
    bucket: string,
    globalBlobs: set<Hash>,
    hashOf: Bytes -> Hash,
    matchedCount: Write -> nat,
    liveProjects: map<ProjectId, Project>,
    softDeletedProjects: map<ProjectId, Project>,
    filestore: map<(ProjectId, Id), Bytes>)

  /** The mutable side of the run.
      - `cache`: `PROJECT_CACHE`.
      - `blobIndex`: blobs that `getBlob` finds, per history id.
      - `blobObjects`: bytes that `getStream` returns, per history id and hash.
      - `backedUp`: blobs `_blobIsBackedUp` reports, per project id and hash.
      - `writes`: the database writes issued so far, oldest first. */
  datatype World = World(
    cache: map<ProjectId, CachedProject>,
    blobIndex: set<(HistoryId, Hash)>,
    blobObjects: map<(HistoryId, Hash), Bytes>,
    backedUp: set<(ProjectId, Hash)>,
    writes: seq<Write>)

  /** The state after an operation together with what it returned or threw.
      A throw does not undo the effects that preceded it. */
  datatype Step<T> = Step(world: World, result: Result<T, Error>)

  /** `w2` is `w1` with at most some projects newly cached. */
  ghost predicate OnlyCacheGrows(w1: World, w2: World)
  {
    && w2.(cache := w1.cache) == w1
    && forall q :: q in w1.cache ==> q in w2.cache && w2.cache[q] == w1.cache[q]
  }

  /** Which document `getProject` loads for an uncached id: the live one first. */
  function LoadProject(env: Env, pid: ProjectId): Option<CachedProject>
  {
    if pid in env.liveProjects then Some(CachedProject(env.liveProjects[pid], false))
    else if pid in env.softDeletedProjects then Some(CachedProject(env.softDeletedProjects[pid], true))
    else None
  }

  /** `getProject`: answer from the cache; otherwise load the live document, or
      else the soft-deleted one, and remember it; with neither, the project is
      hard-deleted. Only the cache can change, and only by gaining `pid`. */
  function GetProject(env: Env, w: World, pid: ProjectId): (s: Step<CachedProject>)
    ensures OnlyCacheGrows(w, s.world)
    ensures s.world.cache.Keys <= w.cache.Keys + {pid}
    ensures s.result.Ok? <==> pid in w.cache || LoadProject(env, pid).Some?
    ensures s.result.Ok? ==> pid in s.world.cache && s.world.cache[pid] == s.result.value
    ensures s.result.Err? ==> s.world == w && s.result.error == ProjectHardDeleted
    ensures pid in w.cache ==> s == Step(w, Ok(w.cache[pid]))
    ensures pid !in w.cache && s.result.Ok? ==> Some(s.result.value) == LoadProject(env, pid)
  {
    if pid in w.cache then Step(w, Ok(w.cache[pid]))
    else match LoadProject(env, pid)
      case Some(c) => Step(w.(cache := w.cache[pid := c]), Ok(c))
      case None => Step(w, Err(ProjectHardDeleted))
  }

  /** Asking again for a project the run has already loaded answers from the
      cache and changes nothing. */
  lemma GetProjectMemoises(env: Env, w: World, pid: ProjectId)
    ensures var s := GetProject(env, w, pid);
            s.result.Ok? ==> GetProject(env, s.world, pid) == Step(s.world, s.result)
  {
  }

  /** Where `findFile` found a file: the document kind, the write filter, the
      full field path of the reference, and the search hit. */
  datatype Located = Located(softDeleted: bool, query: Query, fullPath: string, hit: Match)

  /** The top-level prefix of the root folder inside each document kind. */
  function RootPrefix(softDeleted: bool): string
  {
    if softDeleted then "project.rootFolder.0" else "rootFolder.0"
  }

  /** The field the write filter identifies the document by. */
  function ProjectKey(softDeleted: bool): string
  {
    if softDeleted then "deleterData.deletedProjectId" else "_id"
  }

  /** `findFile`: load the project and search its root folder for the file. */
  function FindFile(env: Env, w: World, pid: ProjectId, fid: Id): (s: Step<Located>)
    ensures OnlyCacheGrows(w, s.world)
    ensures s.world == GetProject(env, w, pid).world
    ensures s.result.Ok? ==>
              && pid in s.world.cache
              && Root(s.world.cache[pid]).Some?
              && GetFileTreePath(Root(s.world.cache[pid]).value, fid) == Some(s.result.value.hit)
              && s.result.value.softDeleted == s.world.cache[pid].softDeleted
  {
    var g := GetProject(env, w, pid);
    if g.result.Err? then Step(g.world, Err(g.result.error))
    else
      var c := g.result.value;
      var hit := if Root(c).Some? then GetFileTreePath(Root(c).value, fid) else None;
      if hit.None? then Step(g.world, Err(FileDeleted(c.softDeleted)))
      else
        var fullPath := RootPrefix(c.softDeleted) + PathString(hit.value.path);
        var query := Query(ProjectKey(c.softDeleted), pid, fullPath + "._id", fid);
        Step(g.world, Ok(Located(c.softDeleted, query, fullPath, hit.value)))
  }

  /** What `findFile` reports, by case: a hard-deleted project fails with that
      error; a loaded project whose tree lacks the id fails with the benign
      `FileDeleted` and never anything else; a loaded project whose tree has it
      yields the first match, its full path under the right prefix, and a
      filter keyed on `deleterData.deletedProjectId` (soft-deleted) or `_id`
      (live) plus the reference's own `_id` field. */
  lemma FindFileOutcome(env: Env, w: World, pid: ProjectId, fid: Id)
    ensures var s := FindFile(env, w, pid, fid);
            var g := GetProject(env, w, pid);
            && (g.result.Err? ==> s.result == Err(ProjectHardDeleted))
            && (g.result.Ok? ==>
                  var c := g.result.value;
                  var present := Root(c).Some? && HasId(Root(c).value, fid);
                  && (!present <==> s.result.Err?)
                  && (!present ==> s.result == Err(FileDeleted(c.softDeleted)))
                  && (present ==>
                        var loc := s.result.value;
                        && loc.softDeleted == c.softDeleted
                        && IsFirstMatch(Root(c).value, loc.hit.path, fid)
                        && loc.fullPath == RootPrefix(c.softDeleted) + PathString(loc.hit.path)
                        && loc.query.projectKey
                           == (if c.softDeleted then "deleterData.deletedProjectId" else "_id")
                        && loc.query.projectId == pid
                        && loc.query.elementIdField == loc.fullPath + "._id"
                        && loc.query.fileId == fid))
  {
  }

  /** The collection and version field a write to a located file goes to. */
  function WriteFor(loc: Located, m: Mutation): Write
  {
    if loc.softDeleted then Write(DeletedProjects, loc.query, m, "project.version")
    else Write(Projects, loc.query, m, "version")
  }

  /** Records a database write. */
  function Issue(w: World, wr: Write): World
  {
    w.(writes := w.writes + [wr])
  }

  /** Replaces the cached root folder of a project. */
  function WithRoot(w: World, pid: ProjectId, root: Folder): World
    requires pid in w.cache && Root(w.cache[pid]).Some?
  {
    var c := w.cache[pid];
    w.(cache := w.cache[pid := c.(project := c.project.(rootFolder := c.project.rootFolder[0 := root]))])
  }

  /** The cached root folder of a project, when there is one. */
  function CachedRoot(w: World, pid: ProjectId): Option<Folder>
  {
    if pid in w.cache then Root(w.cache[pid]) else None
  }
}

=== FILE: reconciler.dfy ===
/** The three repair actions and the blob/hash operations under them:
    `setHashInMongo`, `fixNotFound`, `importRestoredFilestoreFile`,
    `computeFilestoreFileHash`, `needsBackingUpToAWS`,
    `ensureBlobExistsForFileAndUploadToAWS`, `fixHashMismatch` and
    `fixDeletePermission`. */
module Reconciler {
  import opened Common
  import opened FileTree
  import opened TreeSearch
  import opened TreeEdit
  import opened ProjectStore
  import Text

  /** The `entry` of a hash-mismatch line: the hash recorded in the file tree and
      `ctx.historyId`. */
  datatype Entry = Entry(hash: Hash, historyId: HistoryId)

  /** The fields of a decoded log line that the actions read; an absent field is `None`. */
  datatype Fields = Fields(
    projectId: ProjectId,
    fileId: Id,
    bucketName: Option<string>,
    hash: Option<Hash>,
    entry: Option<Entry>)

  /** The cached tree of `pid` has `fid`, and its first match carries `hash`
      (what `hashAlreadyUpdatedInFileTree` checks). */
  predicate TreeHashIs(w: World, pid: ProjectId, fid: Id, hash: Hash)
  {
    && CachedRoot(w, pid).Some?
    && GetFileTreePath(CachedRoot(w, pid).value, fid).Some?
    && GetFileTreePath(CachedRoot(w, pid).value, fid).value.fileRef.hash == hash
  }

  /** The blob store, blob bytes and backup registry are the same in both states. */
  predicate SameBlobState(w1: World, w2: World)
  {
    && w1.blobIndex == w2.blobIndex
    && w1.blobObjects == w2.blobObjects
    && w1.backedUp == w2.backedUp
  }

  /** Every project cached in `w1` is still cached in `w2`, with the same
      history id and document kind (only its tree may differ). */
  predicate ProjectsKept(w1: World, w2: World)
  {
    forall q :: q in w1.cache ==>
      && q in w2.cache
      && w2.cache[q].project.historyId == w1.cache[q].project.historyId
      && w2.cache[q].softDeleted == w1.cache[q].softDeleted
  }

  /** `setHashInMongo`: locate the file; when its hash already equals `hash`,
      do nothing; otherwise `$set` the hash (and bump the version), fail unless
      exactly one document matched, and mirror the write in the cache. */
  function SetHashInMongo(env: Env, w: World, pid: ProjectId, fid: Id, hash: Hash): (s: Step<()>)
    ensures SameBlobState(w, s.world) && ProjectsKept(w, s.world)
    ensures s.result.Ok? ==> pid in s.world.cache
    ensures forall o :: o in w.cache && o != pid ==> o in s.world.cache && s.world.cache[o] == w.cache[o]
    ensures |w.writes| <= |s.world.writes| <= |w.writes| + 1 && s.world.writes[..|w.writes|] == w.writes
  {
    var f := FindFile(env, w, pid, fid);
    if f.result.Err? then Step(f.world, Err(f.result.error))
    else
      var loc := f.result.value;
      if loc.hit.fileRef.hash == hash then Step(f.world, Ok(()))
      else
        var wr := WriteFor(loc, SetHash(loc.fullPath + ".hash", hash));
        var w1 := Issue(f.world, wr);
        if env.matchedCount(wr) != 1 then Step(w1, Err(WriteNotMatched))
        else Step(WithRoot(w1, pid, SetRefHash(CachedRoot(f.world, pid).value, loc.hit.path, hash)), Ok(()))
  }

  /** After a successful `setHashInMongo` the located reference carries `hash`;
      the tree keeps every position, the located reference keeps its id, and
      every other reference and every other cached project is unchanged. */
  lemma SetHashInMongoEffect(env: Env, w: World, pid: ProjectId, fid: Id, hash: Hash)
    requires SetHashInMongo(env, w, pid, fid, hash).result.Ok?
    ensures var s := SetHashInMongo(env, w, pid, fid, hash);
            var w0 := FindFile(env, w, pid, fid).world;
            var p := FindFile(env, w, pid, fid).result.value.hit.path;
            && TreeHashIs(s.world, pid, fid, hash)
            && CachedRoot(w0, pid).Some? && CachedRoot(s.world, pid).Some?
            && ValidPath(CachedRoot(w0, pid).value, p)
            && (forall q :: ValidPath(CachedRoot(s.world, pid).value, q) <==> ValidPath(CachedRoot(w0, pid).value, q))
            && (forall q :: ValidPath(CachedRoot(w0, pid).value, q) ==>
                  RefAt(CachedRoot(s.world, pid).value, q)
                  == if q == p then RefAt(CachedRoot(w0, pid).value, p).(hash := hash)
                     else RefAt(CachedRoot(w0, pid).value, q))
            && (forall o :: o in w0.cache && o != pid ==> o in s.world.cache && s.world.cache[o] == w0.cache[o])
  {
    var f := FindFile(env, w, pid, fid);
    var loc := f.result.value;
    var root := CachedRoot(f.world, pid).value;
    var p := loc.hit.path;
    if loc.hit.fileRef.hash != hash {
      var root' := SetRefHash(root, p, hash);
      forall q ensures ValidPath(root', q) <==> ValidPath(root, q)
        ensures ValidPath(root, q) ==> RefAt(root', q) == if q == p then RefAt(root, p).(hash := hash) else RefAt(root, q)
      {
        SetRefHashEffect(root, p, hash, q);
      }
      SetRefHashKeepsSearch(root, p, hash, fid);
    }
  }

  /** When the located reference already carries `hash`, `setHashInMongo`
      issues no write and changes nothing but the project cache. */
  lemma SetHashInMongoNoWrite(env: Env, w: World, pid: ProjectId, fid: Id, hash: Hash)
    requires FindFile(env, w, pid, fid).result.Ok?
    requires FindFile(env, w, pid, fid).result.value.hit.fileRef.hash == hash
    ensures SetHashInMongo(env, w, pid, fid, hash) == Step(FindFile(env, w, pid, fid).world, Ok(()))
    ensures OnlyCacheGrows(w, SetHashInMongo(env, w, pid, fid, hash).world)
  {
  }

  /** `setHashInMongo` is idempotent: repeating a successful call issues no
      write and changes nothing. */
  lemma SetHashInMongoIdempotent(env: Env, w: World, pid: ProjectId, fid: Id, hash: Hash)
    requires SetHashInMongo(env, w, pid, fid, hash).result.Ok?
    ensures var s := SetHashInMongo(env, w, pid, fid, hash);
            SetHashInMongo(env, s.world, pid, fid, hash) == Step(s.world, Ok(()))
  {
    SetHashInMongoEffect(env, w, pid, fid, hash);
  }

  /** A hash write goes to the located element's `hash` field of the right
      collection; when it does not match exactly one document the call fails
      with `WriteNotMatched` and the cache keeps the old hash. */
  lemma SetHashInMongoWrite(env: Env, w: World, pid: ProjectId, fid: Id, hash: Hash)
    requires FindFile(env, w, pid, fid).result.Ok?
    requires FindFile(env, w, pid, fid).result.value.hit.fileRef.hash != hash
    ensures var f := FindFile(env, w, pid, fid);
            var loc := f.result.value;
            var s := SetHashInMongo(env, w, pid, fid, hash);
            var wr := s.world.writes[|s.world.writes| - 1];
            && s.world.writes[..|s.world.writes| - 1] == w.writes
            && |s.world.writes| == |w.writes| + 1
            && wr.mutation == SetHash(RootPrefix(loc.softDeleted) + PathString(loc.hit.path) + ".hash", hash)
            && wr.query == loc.query
            && (wr.collection == DeletedProjects <==> loc.softDeleted)
            && wr.versionField == (if loc.softDeleted then "project.version" else "version")
            && (env.matchedCount(wr) != 1 <==> s.result.Err?)
            && (s.result.Err? ==> s.result.error == WriteNotMatched && s.world.cache == f.world.cache)
  {
  }

  /** `fixNotFound`: refuse lines about another bucket; locate the file; `$pull`
      it from its parent's `fileRefs` (and bump the version); fail unless
      exactly one document matched; drop it from the cached parent folder. */
  function FixNotFound(env: Env, w: World, line: Fields): (s: Step<bool>)
    ensures s.result.Ok? ==> s.result.value
    ensures SameBlobState(w, s.world) && ProjectsKept(w, s.world)
    ensures forall o :: o in w.cache && o != line.projectId ==> o in s.world.cache && s.world.cache[o] == w.cache[o]
  {
    if line.bucketName != Some(env.bucket) then Step(w, Err(OtherBucket))
    else
      var pid, fid := line.projectId, line.fileId;
      var f := FindFile(env, w, pid, fid);
      if f.result.Err? then Step(f.world, Err(f.result.error))
      else
        var loc := f.result.value;
        var arrayField := Text.SliceTo(loc.fullPath, Text.LastIndexOf(loc.fullPath, '.'));
        var wr := WriteFor(loc, Pull(arrayField, fid));
        var w1 := Issue(f.world, wr);
        if env.matchedCount(wr) != 1 then Step(w1, Err(WriteNotMatched))
        else Step(WithRoot(w1, pid, RemoveRefAt(CachedRoot(f.world, pid).value, loc.hit.path.folders, fid)), Ok(true))
  }

  /** A not-found line for another bucket fails before anything is read or written. */
  lemma FixNotFoundBucketGuard(env: Env, w: World, line: Fields)
    requires line.bucketName != Some(env.bucket)
    ensures FixNotFound(env, w, line) == Step(w, Err(OtherBucket))
  {
  }

  /** For a line about the configured bucket: a file missing from the tree gives
      the benign `FileDeleted`; a located file gets exactly one `$pull` whose
      target is the parent's `fileRefs` array (the full path with its last
      index segment cut off) and which selects the file by id; the call fails
      with `WriteNotMatched` exactly when that write did not match one
      document; and on success the cached parent's references become the old
      ones minus those with the id, every other folder keeping its references. */
  lemma FixNotFoundEffect(env: Env, w: World, line: Fields)
    requires line.bucketName == Some(env.bucket)
    ensures var pid, fid := line.projectId, line.fileId;
            var f := FindFile(env, w, pid, fid);
            var s := FixNotFound(env, w, line);
            && (f.result.Err? ==> s == Step(f.world, Err(f.result.error)))
            && (f.result.Ok? ==>
                  var loc := f.result.value;
                  var fp := loc.hit.path.folders;
                  var root := CachedRoot(f.world, pid).value;
                  var wr := s.world.writes[|s.world.writes| - 1];
                  && |s.world.writes| == |w.writes| + 1
                  && s.world.writes[..|w.writes|] == w.writes
                  && wr.mutation == Pull(RootPrefix(loc.softDeleted) + FolderSegments(fp) + ".fileRefs", fid)
                  && wr.query == loc.query
                  && wr.collection == (if loc.softDeleted then DeletedProjects else Projects)
                  && wr.versionField == (if loc.softDeleted then "project.version" else "version")
                  && (s.result.Err? <==> env.matchedCount(wr) != 1)
                  && (s.result.Err? ==> s.result.error == WriteNotMatched && s.world.cache == f.world.cache)
                  && (s.result.Ok? ==>
                        && CachedRoot(s.world, pid).Some?
                        && var root' := CachedRoot(s.world, pid).value;
                        && (forall q :: ValidFolderPath(root', q) <==> ValidFolderPath(root, q))
                        && (forall q :: ValidFolderPath(root, q) ==>
                              FolderAt(root', q).fileRefs
                              == if q == fp then RemoveRefs(FolderAt(root, q).fileRefs, fid)
                                 else FolderAt(root, q).fileRefs)))
  {
    var pid, fid := line.projectId, line.fileId;
    var f := FindFile(env, w, pid, fid);
    if f.result.Ok? {
      var loc := f.result.value;
      var fp := loc.hit.path.folders;
      var root := CachedRoot(f.world, pid).value;
      ArrayFieldOfPath(RootPrefix(loc.softDeleted), loc.hit.path);
      var s := FixNotFound(env, w, line);
      if s.result.Ok? {
        var refs := RemoveRefs(FolderAt(root, fp).fileRefs, fid);
        forall q ensures ValidFolderPath(SetFileRefs(root, fp, refs), q) <==> ValidFolderPath(root, q)
          ensures ValidFolderPath(root, q) ==>
                    FolderAt(SetFileRefs(root, fp, refs), q).fileRefs
                    == if q == fp then refs else FolderAt(root, q).fileRefs
        {
          SetFileRefsFrame(root, fp, refs, q);
        }
      }
    }
  }

  /** When ids are unique in the tree, replaying a successful not-found line
      reports the benign `FileDeleted`: the file is already gone from the cache. */
  lemma FixNotFoundReplay(env: Env, w: World, line: Fields)
    requires FixNotFound(env, w, line).result.Ok?
    requires UniqueIds(CachedRoot(FindFile(env, w, line.projectId, line.fileId).world, line.projectId).value)
    ensures var s := FixNotFound(env, w, line);
            FixNotFound(env, s.world, line).result.Err?
            && FixNotFound(env, s.world, line).result.error.FileDeleted?
  {
    var pid, fid := line.projectId, line.fileId;
    var f := FindFile(env, w, pid, fid);
    var loc := f.result.value;
    var root := CachedRoot(f.world, pid).value;
    RemoveRefAtClearsId(root, loc.hit.path, fid);
  }

  /** `importRestoredFilestoreFile`: fetch the legacy object (its absence is the
      "needs restoring" error), store it as a blob under its own hash, back it
      up, and set that hash in the file tree. */
  function ImportRestoredFile(env: Env, w: World, pid: ProjectId, fid: Id, hid: HistoryId): (s: Step<()>)
    ensures ProjectsKept(w, s.world)
    ensures forall o :: o in w.cache && o != pid ==> o in s.world.cache && s.world.cache[o] == w.cache[o]
    ensures |w.writes| <= |s.world.writes| <= |w.writes| + 1 && s.world.writes[..|w.writes|] == w.writes
    ensures (pid, fid) in env.filestore ==>
              var bytes := env.filestore[(pid, fid)];
              var h := env.hashOf(bytes);
              && s.world.blobIndex == w.blobIndex + {(hid, h)}
              && s.world.blobObjects == w.blobObjects[(hid, h) := bytes]
              && s.world.backedUp == w.backedUp + {(pid, h)}
  {
    if (pid, fid) !in env.filestore then Step(w, Err(MissingFilestoreFile))
    else
      var bytes := env.filestore[(pid, fid)];
      var h := env.hashOf(bytes);
      var w1 := w.(blobIndex := w.blobIndex + {(hid, h)},
                   blobObjects := w.blobObjects[(hid, h) := bytes],
                   backedUp := w.backedUp + {(pid, h)});
      SetHashInMongo(env, w1, pid, fid, h)
  }

  /** A successful import leaves the blob of the legacy bytes stored under
      their hash in the given history, backed up, and that hash in the tree. */
  lemma ImportRestoredFileEffect(env: Env, w: World, pid: ProjectId, fid: Id, hid: HistoryId)
    ensures var s := ImportRestoredFile(env, w, pid, fid, hid);
            && ((pid, fid) !in env.filestore <==> s == Step(w, Err(MissingFilestoreFile)))
            && ProjectsKept(w, s.world)
            && (forall o :: o in w.cache && o != pid ==> o in s.world.cache && s.world.cache[o] == w.cache[o])
            && (|w.writes| <= |s.world.writes| <= |w.writes| + 1 && s.world.writes[..|w.writes|] == w.writes)
            && ((pid, fid) in env.filestore ==>
                  var bytes := env.filestore[(pid, fid)];
                  var h := env.hashOf(bytes);
                  && s.world.blobIndex == w.blobIndex + {(hid, h)}
                  && s.world.blobObjects == w.blobObjects[(hid, h) := bytes]
                  && s.world.backedUp == w.backedUp + {(pid, h)})
            && (s.result.Ok? ==>
                  var bytes := env.filestore[(pid, fid)];
                  var h := env.hashOf(bytes);
                  && (hid, h) in s.world.blobIndex
                  && (hid, h) in s.world.blobObjects && s.world.blobObjects[(hid, h)] == bytes
                  && (pid, h) in s.world.backedUp
                  && TreeHashIs(s.world, pid, fid, h))
  {
    if (pid, fid) in env.filestore {
      var bytes := env.filestore[(pid, fid)];
      var h := env.hashOf(bytes);
      var w1 := w.(blobIndex := w.blobIndex + {(hid, h)},
                   blobObjects := w.blobObjects[(hid, h) := bytes],
                   backedUp := w.backedUp + {(pid, h)});
      if SetHashInMongo(env, w1, pid, fid, h).result.Ok? {
        SetHashInMongoEffect(env, w1, pid, fid, h);
      }
    }
  }

  /** `computeFilestoreFileHash`: the hash of the legacy object's bytes; reads only. */
  function ComputeFilestoreFileHash(env: Env, pid: ProjectId, fid: Id): (r: Result<Hash, Error>)
    ensures r.Ok? <==> (pid, fid) in env.filestore
    ensures r.Ok? ==> r.value == env.hashOf(env.filestore[(pid, fid)])
    ensures r.Err? ==> r.error == MissingFilestoreFile
  {
    if (pid, fid) in env.filestore then Ok(env.hashOf(env.filestore[(pid, fid)]))
    else Err(MissingFilestoreFile)
  }

  /** `needsBackingUpToAWS`: a global blob never needs a backup; any other blob
      needs one until the registry reports it backed up. */
  function NeedsBackingUp(env: Env, w: World, pid: ProjectId, hash: Hash): (r: bool)
    ensures hash in env.globalBlobs ==> !r
    ensures r <==> hash !in env.globalBlobs && (pid, hash) !in w.backedUp
  {
    if hash in env.globalBlobs then false else (pid, hash) !in w.backedUp
  }

  /** Recording a backup settles the need for one, and nothing else settles or
      raises it: the need for any other blob or project is unchanged. */
  lemma BackupSettlesNeed(env: Env, w: World, pid: ProjectId, hash: Hash, pid': ProjectId, hash': Hash)
    ensures !NeedsBackingUp(env, w.(backedUp := w.backedUp + {(pid, hash)}), pid, hash)
    ensures (pid', hash') != (pid, hash) ==>
              NeedsBackingUp(env, w.(backedUp := w.backedUp + {(pid, hash)}), pid', hash')
              == NeedsBackingUp(env, w, pid', hash')
  {
  }

  /** The "already processed" condition of `ensureBlobExistsForFileAndUploadToAWS`:
      the tree already has `hash`, the project's history has the blob, and it
      needs no backup. */
  predicate Reconciled(env: Env, w: World, pid: ProjectId, fid: Id, hash: Hash)
  {
    && pid in w.cache
    && TreeHashIs(w, pid, fid, hash)
    && (w.cache[pid].project.historyId, hash) in w.blobIndex
    && !NeedsBackingUp(env, w, pid, hash)
  }

  /** `ensureBlobExistsForFileAndUploadToAWS`: short-circuit when already
      processed; otherwise download the blob's bytes, refuse them unless they
      re-hash to `hash`, register the blob if missing, back it up, set the tree
      hash, and report that work was done. */
  function EnsureBlobExists(env: Env, w: World, pid: ProjectId, fid: Id, hash: Hash): (s: Step<bool>)
    ensures s.result == Ok(false) ==> SameBlobState(w, s.world)
    ensures GetProject(env, w, pid).result.Err? ==> s.world == w
    ensures ProjectsKept(w, s.world)
    ensures forall o :: o in w.cache && o != pid ==> o in s.world.cache && s.world.cache[o] == w.cache[o]
    ensures s.world.blobObjects == w.blobObjects
    ensures |w.writes| <= |s.world.writes| <= |w.writes| + 1 && s.world.writes[..|w.writes|] == w.writes
    ensures GetProject(env, w, pid).result.Ok? ==>
              var hid := GetProject(env, w, pid).result.value.project.historyId;
              && w.blobIndex <= s.world.blobIndex <= w.blobIndex + {(hid, hash)}
              && w.backedUp <= s.world.backedUp <= w.backedUp + {(pid, hash)}
  {
    var g := GetProject(env, w, pid);
    if g.result.Err? then Step(g.world, Err(g.result.error))
    else
      var hid := g.result.value.project.historyId;
      var f := FindFile(env, g.world, pid, fid);
      if f.result.Err? then Step(f.world, Err(f.result.error))
      else if f.result.value.hit.fileRef.hash == hash
              && (hid, hash) in f.world.blobIndex
              && !NeedsBackingUp(env, f.world, pid, hash) then
        Step(f.world, Ok(false))
      else if (hid, hash) !in f.world.blobObjects then Step(f.world, Err(BlobObjectMissing))
      else if env.hashOf(f.world.blobObjects[(hid, hash)]) != hash then Step(f.world, Err(BlobCorrupted))
      else
        var w1 := f.world.(blobIndex := f.world.blobIndex + {(hid, hash)},
                           backedUp := f.world.backedUp + {(pid, hash)});
        var u := SetHashInMongo(env, w1, pid, fid, hash);
        if u.result.Err? then Step(u.world, Err(u.result.error)) else Step(u.world, Ok(true))
  }

  /** It returns `false` exactly when the state (with the project loaded) is
      already reconciled, and then changes nothing beyond loading the project. */
  lemma EnsureBlobShortCircuit(env: Env, w: World, pid: ProjectId, fid: Id, hash: Hash)
    ensures var w0 := GetProject(env, w, pid).world;
            var s := EnsureBlobExists(env, w, pid, fid, hash);
            && (s.result == Ok(false) <==> Reconciled(env, w0, pid, fid, hash))
            && (s.result == Ok(false) ==> s.world == w0)
  {
  }

  /** It never accepts corrupted bytes: when the work is needed and the stored
      bytes do not hash to `hash`, it fails with `BlobCorrupted` and registers,
      backs up and writes nothing; and any `true` answer implies the stored
      bytes did hash to `hash`. */
  lemma EnsureBlobRejectsCorruption(env: Env, w: World, pid: ProjectId, fid: Id, hash: Hash)
    ensures var g := GetProject(env, w, pid);
            var s := EnsureBlobExists(env, w, pid, fid, hash);
            && (s.result == Ok(true) ==>
                  var hid := g.result.value.project.historyId;
                  (hid, hash) in w.blobObjects && env.hashOf(w.blobObjects[(hid, hash)]) == hash)
            && (g.result.Ok? ==>
                  var hid := g.result.value.project.historyId;
                  (&& FindFile(env, g.world, pid, fid).result.Ok?
                   && !Reconciled(env, g.world, pid, fid, hash)
                   && (hid, hash) in w.blobObjects
                   && env.hashOf(w.blobObjects[(hid, hash)]) != hash)
                  ==> s == Step(g.world, Err(BlobCorrupted)))
  {
    var g := GetProject(env, w, pid);
    if g.result.Ok? {
      var hid := g.result.value.project.historyId;
      var f := FindFile(env, g.world, pid, fid);
      assert f.world == g.world;
      assert SameBlobState(w, g.world);
    }
  }

  /** Whenever it returns, the state is reconciled: the tree has `hash`, the
      history has the blob, and it needs no backup; a `true` answer means the
      blob was backed up for the project in this call. */
  lemma EnsureBlobEffect(env: Env, w: World, pid: ProjectId, fid: Id, hash: Hash)
    ensures var s := EnsureBlobExists(env, w, pid, fid, hash);
            && (s.result.Ok? ==> Reconciled(env, s.world, pid, fid, hash))
            && (s.result == Ok(true) ==>
                  (pid, hash) in s.world.backedUp
                  && (s.world.cache[pid].project.historyId, hash) in s.world.blobIndex)
  {
    var s := EnsureBlobExists(env, w, pid, fid, hash);
    var g := GetProject(env, w, pid);
    if s.result.Ok? {
      var hid := g.result.value.project.historyId;
      var f := FindFile(env, g.world, pid, fid);
      assert f.world == g.world;
      assert f.world.cache[pid].project.historyId == hid;
      if s.result == Ok(true) {
        var w1 := f.world.(blobIndex := f.world.blobIndex + {(hid, hash)},
                           backedUp := f.world.backedUp + {(pid, hash)});
        var u := SetHashInMongo(env, w1, pid, fid, hash);
        assert s.world == u.world;
        SetHashInMongoEffect(env, w1, pid, fid, hash);
        assert SameBlobState(w1, u.world) && ProjectsKept(w1, u.world);
        assert u.world.cache[pid].project.historyId == hid;
      }
    }
  }

  /** A reconciled state short-circuits: the call answers `false` and changes nothing. */
  lemma ReconciledShortCircuits(env: Env, w: World, pid: ProjectId, fid: Id, hash: Hash)
    requires Reconciled(env, w, pid, fid, hash)
    ensures EnsureBlobExists(env, w, pid, fid, hash) == Step(w, Ok(false))
  {
  }

  /** Idempotence: after any successful call, a second call with the same
      arguments and no outside change answers `false` and changes nothing. */
  lemma EnsureBlobIdempotent(env: Env, w: World, pid: ProjectId, fid: Id, hash: Hash)
    requires EnsureBlobExists(env, w, pid, fid, hash).result.Ok?
    ensures var s := EnsureBlobExists(env, w, pid, fid, hash);
            EnsureBlobExists(env, s.world, pid, fid, hash) == Step(s.world, Ok(false))
  {
    EnsureBlobEffect(env, w, pid, fid, hash);
    ReconciledShortCircuits(env, EnsureBlobExists(env, w, pid, fid, hash).world, pid, fid, hash);
  }

  /** `fixHashMismatch`: a blob under the recorded tree hash is an unexplained
      inconsistency; with no blob under the computed hash either, import the
      legacy file; otherwise make sure the computed hash's blob is complete. */
  function FixHashMismatch(env: Env, w: World, line: Fields): (s: Step<bool>)
  {
    if line.hash.None? || line.entry.None? then Step(w, Err(MalformedLine))
    else
      var pid, fid := line.projectId, line.fileId;
      var computed, treeHash, hid := line.hash.value, line.entry.value.hash, line.entry.value.historyId;
      if (hid, treeHash) in w.blobIndex then Step(w, Err(BlobFoundUnderTreeHash))
      else if (hid, computed) !in w.blobIndex then
        var i := ImportRestoredFile(env, w, pid, fid, hid);
        if i.result.Err? then Step(i.world, Err(i.result.error)) else Step(i.world, Ok(true))
      else EnsureBlobExists(env, w, pid, fid, computed)
  }

  /** The three branches: a blob under the recorded hash always fails, and
      before anything else happens; no blob under the computed hash means an
      import that answers `true` when it succeeds; otherwise the answer is the
      one of the ensure-and-backup step for the computed hash. */
  lemma FixHashMismatchBranches(env: Env, w: World, line: Fields)
    requires line.hash.Some? && line.entry.Some?
    ensures var s := FixHashMismatch(env, w, line);
            var pid, fid := line.projectId, line.fileId;
            var computed, treeHash, hid := line.hash.value, line.entry.value.hash, line.entry.value.historyId;
            && ((hid, treeHash) in w.blobIndex ==> s == Step(w, Err(BlobFoundUnderTreeHash)))
            && ((hid, treeHash) !in w.blobIndex && (hid, computed) !in w.blobIndex ==>
                  var i := ImportRestoredFile(env, w, pid, fid, hid);
                  && s.world == i.world
                  && (s.result.Ok? <==> i.result.Ok?)
                  && (s.result.Ok? ==> s.result.value)
                  && (s.result.Ok? ==> TreeHashIs(s.world, pid, fid, env.hashOf(env.filestore[(pid, fid)]))))
            && ((hid, treeHash) !in w.blobIndex && (hid, computed) in w.blobIndex ==>
                  s == EnsureBlobExists(env, w, pid, fid, computed))
  {
    ImportRestoredFileEffect(env, w, line.projectId, line.fileId, line.entry.value.historyId);
  }

  /** Replaying a hash-mismatch line after it was repaired by an import reports
      "already processed" and changes nothing, provided the legacy bytes hash to
      the line's computed hash, the line's history id is the project's, and the
      recorded hash differs from the computed one. */
  lemma FixHashMismatchReplay(env: Env, w: World, line: Fields)
    requires line.hash.Some? && line.entry.Some?
    requires (line.entry.value.historyId, line.hash.value) !in w.blobIndex
    requires (line.projectId, line.fileId) in env.filestore
    requires env.hashOf(env.filestore[(line.projectId, line.fileId)]) == line.hash.value
    requires line.entry.value.hash != line.hash.value
    requires FixHashMismatch(env, w, line).result.Ok?
    requires var s := FixHashMismatch(env, w, line);
             line.projectId in s.world.cache
             && s.world.cache[line.projectId].project.historyId == line.entry.value.historyId
    ensures var s := FixHashMismatch(env, w, line);
            FixHashMismatch(env, s.world, line) == Step(s.world, Ok(false))
  {
    var pid, fid, hid := line.projectId, line.fileId, line.entry.value.historyId;
    ImportRestoredFileEffect(env, w, pid, fid, hid);
    var s := FixHashMismatch(env, w, line);
    assert (hid, line.entry.value.hash) !in s.world.blobIndex by {
      var h := line.hash.value;
      var bytes := env.filestore[(pid, fid)];
      var w1 := w.(blobIndex := w.blobIndex + {(hid, h)},
                   blobObjects := w.blobObjects[(hid, h) := bytes],
                   backedUp := w.backedUp + {(pid, h)});
      assert s.world.blobIndex == w1.blobIndex;
    }
    ReconciledShortCircuits(env, s.world, pid, fid, line.hash.value);
  }

  /** `fixDeletePermission`: use the line's hash, or compute it from the legacy
      object when the line has none (absent or empty), then ensure the blob and
      its backup. */
  function FixDeletePermission(env: Env, w: World, line: Fields): (s: Step<bool>)
  {
    var pid, fid := line.projectId, line.fileId;
    var h := if line.hash.Some? && line.hash.value != "" then Ok(line.hash.value)
             else ComputeFilestoreFileHash(env, pid, fid);
    if h.Err? then Step(w, Err(h.error))
    else EnsureBlobExists(env, w, pid, fid, h.value)
  }

  /** Computing the hash and then ensuring the blob leaves the tree holding that
      hash, the blob present, and no backup needed; without a usable hash in the
      line, that hash is the one of the legacy bytes. */
  lemma FixDeletePermissionRoundTrip(env: Env, w: World, line: Fields)
    ensures var s := FixDeletePermission(env, w, line);
            var pid, fid := line.projectId, line.fileId;
            && (s.result.Ok? && (line.hash.None? || line.hash.value == "") ==>
                  (pid, fid) in env.filestore
                  && Reconciled(env, s.world, pid, fid, env.hashOf(env.filestore[(pid, fid)])))
            && (s.result.Ok? && line.hash.Some? && line.hash.value != "" ==>
                  Reconciled(env, s.world, pid, fid, line.hash.value))
            && ((line.hash.None? || line.hash.value == "") && (pid, fid) !in env.filestore ==>
                  s == Step(w, Err(MissingFilestoreFile)))
  {
    var pid, fid := line.projectId, line.fileId;
    var h := if line.hash.Some? && line.hash.value != "" then Ok(line.hash.value)
             else ComputeFilestoreFileHash(env, pid, fid);
    if h.Ok? {
      EnsureBlobEffect(env, w, pid, fid, h.value);
    }
  }
}

=== FILE: run_options.dfy ===
/** Start-up configuration: the three boolean switches (`boolVal`, which
    accepts only the literal strings "true" and "false"), the log path, and the
    user-files bucket taken from the environment. The switches are wired as the
    script wires them: the value given for `fixNotFound` enables the
    hash-mismatch case and the value given for `fixHashMismatch` enables the
    not-found case. */
module RunOptions {
  import opened Common

  /** What start-up can throw. */
  datatype OptionError =
    | NotBoolean(name: string)  // `expected "true" or "false" for boolean option <name>`
    | LogsMissing               // `--logs parameter missing`
    | BucketMissing             // `env var USER_FILES_BUCKET_NAME is missing`

  /** The command-line values as strings, after defaults are filled in. */
  datatype RawArgs = RawArgs(fixNotFound: string, fixDeletePermission: string, fixHashMismatch: string, logs: string)

  /** The defaults of the option table: every switch "true", no log path. */
  const Defaults := RawArgs("true", "true", "true", "")

  /** The switches by the case they enable, and the log path. */
  datatype Config = Config(fixNotFound: bool, fixHashMismatch: bool, fixDeletePermission: bool, logs: string)

  /** The string `boolVal` accepts for each boolean. */
  function BoolString(b: bool): string
  {
    if b then "true" else "false"
  }

  /** `boolVal(name)`: "true" and "false" only; anything else is refused by name. */
  function BoolVal(name: string, v: string): (r: Result<bool, OptionError>)
    ensures r.Err? ==> r.error == NotBoolean(name)
  {
    if v == "true" || v == "false" then Ok(v == "true") else Err(NotBoolean(name))
  }

  /** `boolVal` is the exact inverse of `BoolString`: it accepts a string iff it
      is the rendering of some boolean, and returns that boolean. */
  lemma BoolValInverse(name: string, v: string, b: bool)
    ensures BoolVal(name, BoolString(b)) == Ok(b)
    ensures BoolVal(name, v).Ok? <==> v == BoolString(true) || v == BoolString(false)
    ensures BoolVal(name, v).Ok? ==> BoolString(BoolVal(name, v).value) == v
  {
  }

  /** `parseArgs`: the three switches are read in the order fixNotFound,
      fixDeletePermission, fixHashMismatch, and each value goes to the flag
      the script assigns it to. */
  function ParseArgs(a: RawArgs): (r: Result<Config, OptionError>)
  {
    match BoolVal("fixNotFound", a.fixNotFound)
    case Err(e) => Err(e)
    case Ok(hashMismatch) =>
      match BoolVal("fixDeletePermission", a.fixDeletePermission)
      case Err(e) => Err(e)
      case Ok(deletePermission) =>
        match BoolVal("fixHashMismatch", a.fixHashMismatch)
        case Err(e) => Err(e)
        case Ok(notFound) => Ok(Config(notFound, hashMismatch, deletePermission, a.logs))
  }

  /** What `parseArgs` yields: it succeeds iff all three values are boolean
      literals; the not-found case is enabled by the `fixHashMismatch` value and
      the hash-mismatch case by the `fixNotFound` value; the first bad value in
      reading order is the one reported. */
  lemma ParseArgsWiring(a: RawArgs)
    ensures var r := ParseArgs(a);
            var ok := (a.fixNotFound in {"true", "false"})
                      && (a.fixDeletePermission in {"true", "false"})
                      && (a.fixHashMismatch in {"true", "false"});
            && (r.Ok? <==> ok)
            && (r.Ok? ==>
                  && r.value.fixNotFound == (a.fixHashMismatch == "true")
                  && r.value.fixHashMismatch == (a.fixNotFound == "true")
                  && r.value.fixDeletePermission == (a.fixDeletePermission == "true")
                  && r.value.logs == a.logs)
            && (a.fixNotFound !in {"true", "false"} ==> r == Err(NotBoolean("fixNotFound")))
            && (a.fixNotFound in {"true", "false"} && a.fixDeletePermission !in {"true", "false"} ==>
                  r == Err(NotBoolean("fixDeletePermission")))
            && ((a.fixNotFound in {"true", "false"} && a.fixDeletePermission in {"true", "false"}
                 && a.fixHashMismatch !in {"true", "false"}) ==> r == Err(NotBoolean("fixHashMismatch")))
  {
  }

  /** The crossed wiring on a concrete command line: `--fixNotFound=false`
      leaves the not-found case enabled and disables the hash-mismatch case. */
  lemma CrossedSwitches()
    ensures ParseArgs(Defaults.(fixNotFound := "false", logs := "log.ndjson"))
            == Ok(Config(true, false, true, "log.ndjson"))
  {
  }

  /** Start-up: parse the switches, then insist on a log path, then on a
      bucket name (an unset variable reads as the empty string). */
  function Startup(a: RawArgs, bucketEnv: string): (r: Result<(Config, string), OptionError>)
    ensures r.Ok? ==> r.value.0.logs != "" && r.value.1 == bucketEnv && bucketEnv != ""
    ensures r.Ok? <==> ParseArgs(a).Ok? && a.logs != "" && bucketEnv != ""
    ensures ParseArgs(a).Err? ==> r == Err(ParseArgs(a).error)
    ensures ParseArgs(a).Ok? && a.logs == "" ==> r == Err(LogsMissing)
  {
    match ParseArgs(a)
    case Err(e) => Err(e)
    case Ok(cfg) =>
      if cfg.logs == "" then Err(LogsMissing)
      else if bucketEnv == "" then Err(BucketMissing)
      else Ok((cfg, bucketEnv))
  }
}

=== FILE: text.dfy ===
/** The few JavaScript string operations the repair script relies on:
    `includes`, `lastIndexOf`, `slice(0, end)` and the decimal rendering of an
    array index inside a template literal. */
module Text {

  /** `sub` occurs in `s` starting at position `i`. */
  ghost predicate OccursAt(s: string, sub: string, i: nat)
  {
    i + |sub| <= |s| && s[i..i + |sub|] == sub
  }

  /** `s.includes(sub)`, computed by trying every start position in turn. */
  predicate Includes(s: string, sub: string)
    decreases |s|
  {
    if |sub| > |s| then false
    else s[..|sub|] == sub || Includes(s[1..], sub)
  }

  /** `Includes` holds exactly when the substring occurs at some position. */
  lemma {:induction false} IncludesIffOccurs(s: string, sub: string)
    ensures Includes(s, sub) <==> exists i: nat :: OccursAt(s, sub, i)
    decreases |s|
  {
    if |sub| > |s| {
      forall i: nat ensures !OccursAt(s, sub, i) {
      }
    } else if s[..|sub|] == sub {
      assert OccursAt(s, sub, 0);
    } else {
      IncludesIffOccurs(s[1..], sub);
      if Includes(s[1..], sub) {
        var i: nat :| OccursAt(s[1..], sub, i);
        assert s[i + 1..i + 1 + |sub|] == s[1..][i..i + |sub|];
        assert OccursAt(s, sub, i + 1);
      } else {
        forall i: nat | OccursAt(s, sub, i) ensures false {
          if i > 0 {
            assert s[1..][i - 1..i - 1 + |sub|] == s[i..i + |sub|];
            assert OccursAt(s[1..], sub, i - 1);
          }
        }
      }
    }
  }

  /** `s.lastIndexOf(c)`: the position of the last `c`, or -1 when there is none. */
  function LastIndexOf(s: string, c: char): (r: int)
    ensures -1 <= r < |s|
    ensures r >= 0 ==> s[r] == c
    ensures forall k :: r < k < |s| ==> s[k] != c
  {
    if |s| == 0 then -1
    else if s[|s| - 1] == c then |s| - 1
    else LastIndexOf(s[..|s| - 1], c)
  }

  /** `s.slice(0, end)`: a negative `end` counts back from the end of the string. */
  function SliceTo(s: string, end: int): string
  {
    if end < 0 then
      (if |s| + end < 0 then "" else s[..|s| + end])
    else if end > |s| then s
    else s[..end]
  }

  /** The last `c` is at `j` when `s[j]` is a `c` and no `c` follows it. */
  lemma LastIndexOfIs(s: string, c: char, j: nat)
    requires j < |s| && s[j] == c
    requires forall k :: j < k < |s| ==> s[k] != c
    ensures LastIndexOf(s, c) == j
  {
  }

  /** Cutting `a + [c] + tail` at its last `c` gives back `a` when `tail` holds no `c`:
      this is how a field path loses its final segment. */
  lemma DropLastSegment(a: string, c: char, tail: string)
    requires forall k :: 0 <= k < |tail| ==> tail[k] != c
    ensures SliceTo(a + [c] + tail, LastIndexOf(a + [c] + tail, c)) == a
  {
    var s := a + [c] + tail;
    forall k | |a| < k < |s| ensures s[k] != c {
      assert s[k] == tail[k - |a| - 1];
    }
    LastIndexOfIs(s, c, |a|);
    assert s[..|a|] == a;
  }

  /** The character of one decimal digit. */
  function DigitChar(d: nat): (ch: char)
    requires d < 10
    ensures '0' <= ch <= '9'
    ensures DigitValue(ch) == d
  {
    (48 + d) as char
  }

  /** The value of a decimal digit character. */
  function DigitValue(ch: char): int
  {
    ch as int - 48
  }

  /** The decimal rendering of an array index, as `${idx}` produces it. */
  function NatToString(n: nat): (r: string)
    ensures |r| >= 1
    ensures forall k :: 0 <= k < |r| ==> '0' <= r[k] <= '9'
  {
    if n < 10 then [DigitChar(n)] else NatToString(n / 10) + [DigitChar(n % 10)]
  }

  /** Reads a string of decimal digits back as a number (used to state that the
      rendering above is the ordinary decimal one). */
  function DecimalValue(s: string): int
  {
    if |s| == 0 then 0 else DecimalValue(s[..|s| - 1]) * 10 + DigitValue(s[|s| - 1])
  }

  /** The rendered index reads back as the same number. */
  lemma {:induction false} NatToStringRoundTrip(n: nat)
    ensures DecimalValue(NatToString(n)) == n
  {
    var r := NatToString(n);
    if n >= 10 {
      NatToStringRoundTrip(n / 10);
      assert r[..|r| - 1] == NatToString(n / 10);
    }
  }
}

=== FILE: tree_edit.dfy ===
/** The two in-memory edits the script makes to a cached file tree after a
    database write succeeded: dropping file references by id from their parent
    folder, and overwriting one reference's hash. */
module TreeEdit {
  import opened FileTree
  import opened TreeSearch

  /** Replaces the `fileRefs` of the folder at `fp`, leaving everything else as is. */
  function SetFileRefs(f: Folder, fp: seq<nat>, refs: seq<FileRef>): (g: Folder)
    requires ValidFolderPath(f, fp)
    decreases |fp|
    ensures ValidFolderPath(g, fp) && FolderAt(g, fp) == FolderAt(f, fp).(fileRefs := refs)
  {
    if |fp| == 0 then f.(fileRefs := refs)
    else f.(folders := f.folders[fp[0] := SetFileRefs(f.folders[fp[0]], fp[1..], refs)])
  }

  /** After `SetFileRefs` the tree has the same folder skeleton, and every folder
      other than the one at `fp` keeps its references. */
  lemma {:induction false} SetFileRefsFrame(f: Folder, fp: seq<nat>, refs: seq<FileRef>, q: seq<nat>)
    requires ValidFolderPath(f, fp)
    ensures ValidFolderPath(SetFileRefs(f, fp, refs), q) <==> ValidFolderPath(f, q)
    ensures ValidFolderPath(f, q) ==>
              && |FolderAt(SetFileRefs(f, fp, refs), q).folders| == |FolderAt(f, q).folders|
              && FolderAt(SetFileRefs(f, fp, refs), q).fileRefs
                 == (if q == fp then refs else FolderAt(f, q).fileRefs)
    decreases |q|
  {
    var g := SetFileRefs(f, fp, refs);
    if |q| > 0 && q[0] < |f.folders| {
      if |fp| > 0 && q[0] == fp[0] {
        SetFileRefsFrame(f.folders[fp[0]], fp[1..], refs, q[1..]);
        assert q == fp <==> q[1..] == fp[1..] by {
          if q[1..] == fp[1..] {
            assert q == [q[0]] + q[1..] && fp == [fp[0]] + fp[1..];
          }
        }
      } else {
        assert g.folders[q[0]] == f.folders[q[0]];
      }
    }
  }

  /** `refs.filter(f => !f._id.equals(id))`: drops the references with `id`,
      keeping the others in order. */
  function RemoveRefs(refs: seq<FileRef>, id: Id): (r: seq<FileRef>)
    ensures forall x :: x in r <==> x in refs && x.id != id
    ensures |r| <= |refs|
  {
    if |refs| == 0 then []
    else if refs[0].id == id then RemoveRefs(refs[1..], id)
    else [refs[0]] + RemoveRefs(refs[1..], id)
  }

  /** Filtering a list without the id changes nothing. */
  lemma {:induction false} RemoveRefsAbsent(refs: seq<FileRef>, id: Id)
    requires forall k :: 0 <= k < |refs| ==> refs[k].id != id
    ensures RemoveRefs(refs, id) == refs
  {
    if |refs| > 0 {
      RemoveRefsAbsent(refs[1..], id);
    }
  }

  /** Filtering works piece by piece, so the survivors stay in their original order. */
  lemma {:induction false} RemoveRefsAppend(a: seq<FileRef>, b: seq<FileRef>, id: Id)
    ensures RemoveRefs(a + b, id) == RemoveRefs(a, id) + RemoveRefs(b, id)
  {
    if |a| > 0 {
      assert (a + b)[1..] == a[1..] + b;
      RemoveRefsAppend(a[1..], b, id);
    } else {
      assert a + b == b;
    }
  }

  /** The cache update of `fixNotFound`: filter the references of the folder at `fp`. */
  function RemoveRefAt(f: Folder, fp: seq<nat>, id: Id): Folder
    requires ValidFolderPath(f, fp)
  {
    SetFileRefs(f, fp, RemoveRefs(FolderAt(f, fp).fileRefs, id))
  }

  /** The cache update of `setHashInMongo`: overwrite the hash of the reference at `p`. */
  function SetRefHash(f: Folder, p: TreePath, hash: Hash): Folder
    requires ValidPath(f, p)
  {
    var refs := FolderAt(f, p.folders).fileRefs;
    SetFileRefs(f, p.folders, refs[p.fileIdx := refs[p.fileIdx].(hash := hash)])
  }

  /** `SetRefHash` changes exactly the hash at `p`: the same positions exist,
      the reference at `p` keeps its id and takes the new hash, and every other
      reference is untouched. */
  lemma SetRefHashEffect(f: Folder, p: TreePath, hash: Hash, q: TreePath)
    requires ValidPath(f, p)
    ensures ValidPath(SetRefHash(f, p, hash), q) <==> ValidPath(f, q)
    ensures ValidPath(f, q) ==>
              RefAt(SetRefHash(f, p, hash), q)
              == (if q == p then RefAt(f, p).(hash := hash) else RefAt(f, q))
  {
    var refs := FolderAt(f, p.folders).fileRefs;
    SetFileRefsFrame(f, p.folders, refs[p.fileIdx := refs[p.fileIdx].(hash := hash)], q.folders);
  }

  /** Replacing references by ones with the same ids keeps the id skeleton. */
  lemma {:induction false} SetFileRefsSameIds(f: Folder, fp: seq<nat>, refs: seq<FileRef>)
    requires ValidFolderPath(f, fp)
    requires |refs| == |FolderAt(f, fp).fileRefs|
    requires forall k :: 0 <= k < |refs| ==> refs[k].id == FolderAt(f, fp).fileRefs[k].id
    ensures SameIds(f, SetFileRefs(f, fp, refs))
    decreases |fp|
  {
    var g := SetFileRefs(f, fp, refs);
    if |fp| == 0 {
      forall j | 0 <= j < |f.folders| ensures SameIds(f.folders[j], g.folders[j]) {
        SameIdsReflexive(f.folders[j]);
      }
    } else {
      SetFileRefsSameIds(f.folders[fp[0]], fp[1..], refs);
      forall j | 0 <= j < |f.folders| ensures SameIds(f.folders[j], g.folders[j]) {
        if j != fp[0] {
          SameIdsReflexive(f.folders[j]);
        }
      }
    }
  }

  /** Overwriting a hash never changes where any id is found. */
  lemma SetRefHashKeepsSearch(f: Folder, p: TreePath, hash: Hash, id: Id)
    requires ValidPath(f, p)
    ensures GetFileTreePath(SetRefHash(f, p, hash), id).Some? <==> GetFileTreePath(f, id).Some?
    ensures GetFileTreePath(f, id).Some? ==>
              GetFileTreePath(SetRefHash(f, p, hash), id).value.path == GetFileTreePath(f, id).value.path
  {
    var refs := FolderAt(f, p.folders).fileRefs;
    SetFileRefsSameIds(f, p.folders, refs[p.fileIdx := refs[p.fileIdx].(hash := hash)]);
    SameIdsSamePath(f, SetRefHash(f, p, hash), id);
  }

  /** In a tree whose ids are unique, filtering `id` out of the folder that holds
      it leaves no reference with that id anywhere. */
  lemma RemoveRefAtClearsId(f: Folder, p: TreePath, id: Id)
    requires UniqueIds(f)
    requires ValidPath(f, p) && RefAt(f, p).id == id
    ensures !HasId(RemoveRefAt(f, p.folders, id), id)
  {
    var refs := RemoveRefs(FolderAt(f, p.folders).fileRefs, id);
    var g := RemoveRefAt(f, p.folders, id);
    forall q | ValidPath(g, q) ensures RefAt(g, q).id != id {
      SetFileRefsFrame(f, p.folders, refs, q.folders);
      if q.folders == p.folders {
        assert RefAt(g, q) in refs;
      } else {
        assert ValidPath(f, q) && RefAt(f, q) == RefAt(g, q);
      }
    }
    HasIdIffPath(g, id);
  }
}

=== FILE: tree_search.dfy ===
/** `getFileTreePath`: the depth-first search for a file id in a folder tree,
    and what its answer means. */
module TreeSearch {
  import opened Common
  import opened FileTree

  /** A hit: where the reference is, the reference itself, and its parent folder. */
  datatype Match = Match(path: TreePath, fileRef: FileRef, folder: Folder)

  /** The first index at or after `from` whose reference carries `id`. */
  function IndexOfRef(refs: seq<FileRef>, id: Id, from: nat): (r: Option<nat>)
    requires from <= |refs|
    decreases |refs| - from
    ensures r.Some? ==> from <= r.value < |refs| && refs[r.value].id == id
    ensures r.Some? ==> forall k :: from <= k < r.value ==> refs[k].id != id
    ensures r.None? ==> forall k :: from <= k < |refs| ==> refs[k].id != id
  {
    if from == |refs| then None
    else if refs[from].id == id then Some(from)
    else IndexOfRef(refs, id, from + 1)
  }

  /** The depth-first order the search promises, stated level by level: the hit
      is the lowest-index match among the folder's own references; only when
      there is none does it lie in a sub-folder, namely in the first sub-folder
      that holds the id anywhere, and there again at its first match. */
  predicate IsFirstMatch(f: Folder, p: TreePath, id: Id)
    decreases |p.folders|
  {
    if |p.folders| == 0 then
      && p.fileIdx < |f.fileRefs|
      && f.fileRefs[p.fileIdx].id == id
      && (forall k :: 0 <= k < p.fileIdx ==> f.fileRefs[k].id != id)
    else
      && (forall k :: 0 <= k < |f.fileRefs| ==> f.fileRefs[k].id != id)
      && p.folders[0] < |f.folders|
      && (forall j :: 0 <= j < p.folders[0] ==> !HasId(f.folders[j], id))
      && IsFirstMatch(f.folders[p.folders[0]], Tail(p), id)
  }

  /** `getFileTreePath(folder, fileId)`: own references first, then each
      sub-folder in order. The answer is present exactly when the id occurs in
      the tree, is the first match in depth-first order, and the returned
      reference and folder are the ones found by following the returned path. */
  function GetFileTreePath(f: Folder, id: Id): (r: Option<Match>)
    decreases f, |f.folders| + 1
    ensures r.Some? <==> HasId(f, id)
    ensures r.Some? ==> IsFirstMatch(f, r.value.path, id)
    ensures r.Some? ==> && ValidPath(f, r.value.path)
                        && r.value.fileRef == RefAt(f, r.value.path)
                        && r.value.fileRef.id == id
                        && r.value.folder == FolderAt(f, r.value.path.folders)
  {
    match IndexOfRef(f.fileRefs, id, 0)
    case Some(k) => Some(Match(TreePath([], k), f.fileRefs[k], f))
    case None => SearchFolders(f, id, 0)
  }

  /** The loop over `folder.folders` from index `i` on. */
  function SearchFolders(f: Folder, id: Id, i: nat): (r: Option<Match>)
    requires i <= |f.folders|
    decreases f, |f.folders| - i
    ensures r.Some? <==> exists j :: i <= j < |f.folders| && HasId(f.folders[j], id)
    ensures r.Some? ==> && |r.value.path.folders| > 0
                        && i <= r.value.path.folders[0] < |f.folders|
                        && (forall j :: i <= j < r.value.path.folders[0] ==> !HasId(f.folders[j], id))
                        && IsFirstMatch(f.folders[r.value.path.folders[0]], Tail(r.value.path), id)
    ensures r.Some? ==> && ValidPath(f, r.value.path)
                        && r.value.fileRef == RefAt(f, r.value.path)
                        && r.value.fileRef.id == id
                        && r.value.folder == FolderAt(f, r.value.path.folders)
  {
    if i == |f.folders| then None
    else
      match GetFileTreePath(f.folders[i], id)
      case Some(m) =>
        DescendValid(f, i, m.path);
        TailOfDescend(i, m.path);
        Some(Match(Descend(i, m.path), m.fileRef, m.folder))
      case None => SearchFolders(f, id, i + 1)
  }

  /** A first match is a real hit. */
  lemma {:induction false} FirstMatchIsHit(f: Folder, p: TreePath, id: Id)
    requires IsFirstMatch(f, p, id)
    ensures ValidPath(f, p) && RefAt(f, p).id == id
    ensures HasId(f, id)
    decreases |p.folders|
  {
    if |p.folders| > 0 {
      var i := p.folders[0];
      FirstMatchIsHit(f.folders[i], Tail(p), id);
      assert Descend(i, Tail(p)) == p;
      DescendValid(f, i, Tail(p));
    }
  }

  /** There is only one first match: the search result is determined. */
  lemma {:induction false} FirstMatchUnique(f: Folder, p: TreePath, q: TreePath, id: Id)
    requires IsFirstMatch(f, p, id) && IsFirstMatch(f, q, id)
    ensures p == q
    decreases |p.folders|
  {
    if |p.folders| > 0 && |q.folders| > 0 {
      var i, j := p.folders[0], q.folders[0];
      FirstMatchIsHit(f.folders[i], Tail(p), id);
      FirstMatchIsHit(f.folders[j], Tail(q), id);
      assert i == j;
      FirstMatchUnique(f.folders[i], Tail(p), Tail(q), id);
      assert p.folders == [i] + Tail(p).folders;
      assert q.folders == [j] + Tail(q).folders;
    }
  }

  /** The search returns position `p` exactly when `p` is the first match in
      depth-first order. */
  lemma SearchFindsExactlyFirstMatch(f: Folder, id: Id, p: TreePath)
    ensures (GetFileTreePath(f, id).Some? && GetFileTreePath(f, id).value.path == p)
            <==> IsFirstMatch(f, p, id)
  {
    if IsFirstMatch(f, p, id) {
      FirstMatchIsHit(f, p, id);
      FirstMatchUnique(f, GetFileTreePath(f, id).value.path, p, id);
    }
  }

  /** Two trees with the same shape and the same ids at every position (hashes
      may differ). */
  predicate SameIds(f: Folder, g: Folder)
    decreases f
  {
    && |f.fileRefs| == |g.fileRefs|
    && |f.folders| == |g.folders|
    && (forall k :: 0 <= k < |f.fileRefs| ==> f.fileRefs[k].id == g.fileRefs[k].id)
    && (forall j :: 0 <= j < |f.folders| ==> SameIds(f.folders[j], g.folders[j]))
  }

  lemma {:induction false} SameIdsReflexive(f: Folder)
    ensures SameIds(f, f)
    decreases f
  {
    forall j | 0 <= j < |f.folders| ensures SameIds(f.folders[j], f.folders[j]) {
      SameIdsReflexive(f.folders[j]);
    }
  }

  lemma {:induction false} SameIdsHasId(f: Folder, g: Folder, id: Id)
    requires SameIds(f, g)
    ensures HasId(f, id) <==> HasId(g, id)
    decreases f
  {
    forall j | 0 <= j < |f.folders| ensures HasId(f.folders[j], id) <==> HasId(g.folders[j], id) {
      SameIdsHasId(f.folders[j], g.folders[j], id);
    }
    if HasId(f, id) {
      if k :| 0 <= k < |f.fileRefs| && f.fileRefs[k].id == id {
        assert g.fileRefs[k].id == id;
      } else {
        var j :| 0 <= j < |f.folders| && HasId(f.folders[j], id);
        assert HasId(g.folders[j], id);
      }
    }
    if HasId(g, id) {
      if k :| 0 <= k < |g.fileRefs| && g.fileRefs[k].id == id {
        assert f.fileRefs[k].id == id;
      } else {
        var j :| 0 <= j < |g.folders| && HasId(g.folders[j], id);
        assert HasId(f.folders[j], id);
      }
    }
  }

  lemma {:induction false} SameIdsFirstMatch(f: Folder, g: Folder, p: TreePath, id: Id)
    requires SameIds(f, g)
    ensures IsFirstMatch(f, p, id) <==> IsFirstMatch(g, p, id)
    decreases |p.folders|
  {
    if |p.folders| > 0 && p.folders[0] < |f.folders| {
      var i := p.folders[0];
      SameIdsFirstMatch(f.folders[i], g.folders[i], Tail(p), id);
      forall j | 0 <= j < i ensures HasId(f.folders[j], id) <==> HasId(g.folders[j], id) {
        SameIdsHasId(f.folders[j], g.folders[j], id);
      }
    }
  }

  /** Changing hashes never moves a search hit: trees with the same ids give the
      same answer position. */
  lemma SameIdsSamePath(f: Folder, g: Folder, id: Id)
    requires SameIds(f, g)
    ensures GetFileTreePath(f, id).Some? <==> GetFileTreePath(g, id).Some?
    ensures GetFileTreePath(f, id).Some? ==>
              GetFileTreePath(f, id).value.path == GetFileTreePath(g, id).value.path
  {
    SameIdsHasId(f, g, id);
    if GetFileTreePath(f, id).Some? {
      var p := GetFileTreePath(f, id).value.path;
      SameIdsFirstMatch(f, g, p, id);
      SearchFindsExactlyFirstMatch(g, id, p);
    }
  }
}
